=== FILE: README.md ===
# Dataset marketplace ledger — a Dafny model

This project models the core of the SheetToChain dataset marketplace:

- **The ledger** (`MarketplaceService` in `lib/services/marketplace.ts`). It holds two in-memory arrays, listings and purchases. It synchronises them with the record of minted dataset NFTs, and it creates, reads, searches, deletes and updates listings, records purchases and computes statistics.
- **The purchase endpoint** (`app/api/purchase-data/route.ts`). It runs a fixed chain of rejection checks, an optional ledger transfer, then one unconditional `recordPurchase`.
- **The decisions inside three pages**:
  - the seller dashboard: category parsing, required-field checks, and the seller's listings and sales;
  - the public marketplace: seeding an empty store with the samples, the search/category filter, the sorted category menu and the summary figures;
  - the buyer's purchases page: the join of purchases to listings, which drops dangling ones.
- **The minting configuration check** (`scripts/verify-minting.mjs`).

The ledger is an immutable `Ledger(listings, purchases)` value. Every service method is a pure function from the ledger before the call to the ledger after it, together with the method's answer.

- **Reads that synchronise.** `getAllListings` and `getListingById` synchronise in the source, so here they are "synchronise, then query". So are `recordPurchase` and `updateListing`, which call `getListingById`.
- **What a pass reads.** The minted records, the treasury account and the clock are a `MintSource` parameter. On the server there is no `window`, so the pass reads nothing; that case is a source with no entries.
- **Generated values.** Identities and timestamps from `Date.now()`, `Math.random()` and `toISOString()` are parameters. A created identity carries a freshness precondition.
- **Number types.** Prices and amounts are `real`; row counts and purchase counters are `int`.

Modules, one per source concern:

| module | file | models |
|---|---|---|
| `Collections` | collections.dfy | `Option`, order-preserving `filter`, `map`, `reduce` sums |
| `Text` | text.dfy | `toLowerCase`, `includes`, `trim`, `split(',')`, `/\.csv$/i`, integer rendering |
| `Model` | model.dfy | `DataListing`, `Purchase`, minted records, lookup by identity |
| `TokenSync` | token_sync.dfy | `syncTokenizedData` |
| `Marketplace` | marketplace.dfy | `MarketplaceService` |
| `PurchaseRoute` | purchase_route.dfy | `POST /api/purchase-data` |
| `SellerDashboard` | seller_dashboard.dfy | seller dashboard page |
| `StringOrder` | string_order.dfy | `Array.prototype.sort` on strings, distinct sorted members |
| `DataMarketplace` | data_marketplace.dfy | public marketplace page, `SAMPLE_LISTINGS` |
| `MyPurchases` | my_purchases.dfy | buyer's purchases page |
| `MintingCheck` | verify_minting.dfy | `verify-minting.mjs` |

Two behaviours of the code are worth stating up front:

- **Records without metadata.** Synchronisation skips a minted record without `metadata` (lib/services/marketplace.ts:65); no listing is built for it from defaults (`TokenSync.SyncSkipsBareRecords`).
- **Price and amount.** The check that the listing's price equals the paid amount lives in the purchase route (app/api/purchase-data/route.ts:49-54). The service's `recordPurchase` records whatever it is given.

## Model

| member | source | states |
|---|---|---|
| Text.LowerIdempotent | lib/services/marketplace.ts:158-162 | lower-casing twice is lower-casing once |
| Text.Contains | lib/services/marketplace.ts:161-162 | `includes` holds exactly when some window of the string equals the query |
| Text.ContainsEmpty | lib/services/marketplace.ts:161-162 | every string contains the empty query |
| Text.TrimStart | app/seller-dashboard/page.tsx:99 | the result is a suffix; what was cut is all white space; it does not start with white space |
| Text.TrimEnd | app/seller-dashboard/page.tsx:99 | the result is a prefix; what was cut is all white space; it does not end with white space |
| Text.Trim | app/seller-dashboard/page.tsx:99 | the result has no white space at either end and sits in the input framed only by white space |
| Text.TrimOfFramed | app/seller-dashboard/page.tsx:99 | trimming a trimmed core padded with white space gives back exactly the core |
| Text.TrimOfTrimmed | app/seller-dashboard/page.tsx:99 | a string with no white space at either end is its own trimming |
| Text.TrimIdempotent | app/seller-dashboard/page.tsx:99 | trimming twice is trimming once |
| Text.Split | app/seller-dashboard/page.tsx:98 | `split` yields at least one piece, no piece holds the separator, and joining the pieces restores the input |
| Text.SplitJoin | app/seller-dashboard/page.tsx:98 | splitting separator-free pieces joined by the separator gives back the pieces |
| Text.StripCsvOfCsvName | lib/services/marketplace.ts:68 | a name ending in `.csv` in any letter case loses exactly that ending |
| Text.Lower | lib/services/marketplace.ts:158-162 | no capital ASCII letter is left; each capital becomes its small letter and every other character is kept |
| Text.StripCsvSuffix | lib/services/marketplace.ts:68 | the result is a prefix of the name, four characters shorter exactly when the name ends in `.csv` in any letter case, and the name itself otherwise |
| Text.StripCsvOfDigitEnding | lib/services/marketplace.ts:67-68 | a name ending in a digit loses nothing |
| Text.StripCsvOnce | lib/services/marketplace.ts:68 | only one trailing `.csv` is removed |
| Text.NatToDecimal | lib/services/marketplace.ts:72 | a serial number renders as a non-empty string of digits in canonical form: "0" exactly for zero, and no leading zero otherwise |
| Text.DecimalRoundTrip | lib/services/marketplace.ts:72 | reading back the rendering of a number gives the number |
| Text.NatToDecimalInjective | lib/services/marketplace.ts:72 | distinct numbers render differently |
| Model.FirstIndex | lib/services/marketplace.ts:254 | `findIndex` gives the first position carrying the identity, and none exactly when no listing carries it |
| Model.FindListing | lib/services/marketplace.ts:172 | `find` gives the first listing carrying the identity (no earlier listing carries it), and none exactly when no listing carries it |
| Model.FirstIndexUnique | lib/services/marketplace.ts:172 | with unique identities the first match is the only match |
| TokenSync.FromEntry | lib/services/marketplace.ts:67-83 | a synced listing has the derived identity, price 2.5, the two fixed categories, the treasury as seller, rating 5, counter 0, the first truthy row count, the hash or `<tokenId>-<serial>`, the file name without `.csv` or `dataset_<millis>` when there is none, the record's time or the pass's, and a description naming the row count or "unknown" |
| TokenSync.SyncedName | lib/services/marketplace.ts:67-68 | a file `<base>.csv` is listed under `<base>` |
| TokenSync.SyncedOtherName | lib/services/marketplace.ts:67-68 | any other non-empty file name is listed unchanged |
| TokenSync.DatasetNameKept | lib/services/marketplace.ts:67-68 | the generated `dataset_<millis>` name is listed unchanged |
| TokenSync.SyncedSeller | lib/services/marketplace.ts:56 | with the treasury resolved from the environment, the seller is the configured account when set and non-empty, `0.0.6990992` otherwise, and never empty |
| TokenSync.SyncEntries | lib/services/marketplace.ts:59-88 | a pass keeps every existing listing, unchanged and in place, as a prefix |
| TokenSync.SyncKeepsUniqueIds | lib/services/marketplace.ts:61-65 | a pass never creates a duplicate identity, even from records repeated within one pass |
| TokenSync.SyncCovers | lib/services/marketplace.ts:59-88 | after a pass every record with metadata is represented by its derived identity |
| TokenSync.SyncAppendsDerived | lib/services/marketplace.ts:65-86 | every appended listing is derived from some record with metadata, and its identity was absent before |
| TokenSync.SyncCovered | lib/services/marketplace.ts:61-65 | a pass over records that are all represented changes nothing |
| TokenSync.SyncIdempotent | lib/services/marketplace.ts:59-88 | running the pass twice equals running it once, whatever clock or treasury the second pass sees |
| TokenSync.SyncSkipsBareRecords | lib/services/marketplace.ts:65 | records without metadata never add a listing |
| TokenSync.DerivedIdInjective | lib/services/marketplace.ts:62 | for underscore-free token identities, the derived identity determines token and serial |
| TokenSync.SyncExample | lib/services/marketplace.ts:59-88 | record `0.0.1`/1 for `q1.csv` with 500 rows yields one listing `tokenized_0.0.1_1`, named `q1`, with 500 rows, the default price and counter 0; a second pass adds nothing |
| Marketplace.Sync | lib/services/marketplace.ts:47-94 | a pass keeps purchases and the existing listings, covers every record with metadata, and keeps identities unique |
| Marketplace.SyncKeepsFind | lib/services/marketplace.ts:169-173 | a listing present before a pass is found unchanged after it |
| Marketplace.SyncTwice | lib/services/marketplace.ts:132-143 | synchronising an already synchronised ledger changes nothing |
| Marketplace.GetListingById | lib/services/marketplace.ts:169-173 | the answer carries the identity and is absent exactly when no synchronised listing has it; a listing present before is returned as it was |
| Marketplace.CreateListing | lib/services/marketplace.ts:99-127 | exactly one listing is appended, with the given fields, rating 5 and counter 0; earlier listings and all purchases stay; unique identities stay unique |
| Marketplace.ListingsByCategory | lib/services/marketplace.ts:148-152 | exactly the listings tagged with the category |
| Marketplace.SearchListings | lib/services/marketplace.ts:157-164 | exactly the listings whose lower-cased name or description contains the lower-cased query |
| Marketplace.GetAllListings | lib/services/marketplace.ts:132-136 | the answer starts with the listings held before the call, unchanged and in order, and covers every minted record with metadata; purchases are untouched |
| Marketplace.QueriesPreserveOrder | lib/services/marketplace.ts:148-164 | search and category queries answer a concatenation with the concatenation of the answers, so order is kept |
| Marketplace.SearchEmptyQuery | lib/services/marketplace.ts:157-164 | the empty query returns every listing |
| Marketplace.SearchFindsWeather | lib/services/marketplace.ts:157-164 | "weather" and "WEATHER" both find the listing named "Weather Data Europe 2024" |
| Marketplace.UserPurchases | lib/services/marketplace.ts:211-213 | exactly the purchases whose buyer is the user, each as often as in the ledger |
| Marketplace.UserSales | lib/services/marketplace.ts:218-220 | exactly the purchases whose seller is the user, each as often as in the ledger |
| Marketplace.PurchaseQueriesPreserveOrder | lib/services/marketplace.ts:211-220 | both purchase queries answer a concatenation with the concatenation of the answers, so order is kept |
| Marketplace.PurchaseById | lib/services/marketplace.ts:225-227 | the first purchase with the identity, and none exactly when no purchase has it |
| Marketplace.BumpCounter | lib/services/marketplace.ts:199-202 | only the first listing with the identity changes, its counter (absent read as 0) going up by one; nothing changes when none has it |
| Marketplace.RecordPurchase | lib/services/marketplace.ts:178-206 | exactly one completed purchase with the given fields is appended, and the counter of the synchronised listing is bumped |
| Marketplace.RecordPurchaseCounts | lib/services/marketplace.ts:198-202 | the counter of a listing present before the call goes up by exactly one |
| Marketplace.RecordPurchaseUnknown | lib/services/marketplace.ts:199-202 | for an unknown identity no listing changes beyond what synchronisation adds |
| Marketplace.RepeatedPurchasesCount | lib/services/marketplace.ts:178-206 | N purchases of a present listing raise its counter by N and append N purchases |
| Marketplace.DeleteListing | lib/services/marketplace.ts:253-261 | removes just the first match and answers true; answers false and changes nothing without one; purchases untouched |
| Marketplace.CreateThenDelete | lib/services/marketplace.ts:253-261 | creating a listing and deleting it restores the ledger |
| Marketplace.ApplyPatchLaws | lib/services/marketplace.ts:272 | the empty patch changes nothing and a patch applied twice equals applying it once |
| Marketplace.ApplyPatch | lib/services/marketplace.ts:272 | the result holds every value the patch supplies; the empty patch changes nothing; a patch supplying every field of a listing yields that listing whatever the original was |
| Marketplace.ApplyPatchUnchanged | lib/services/marketplace.ts:272 | a patch leaves the listing as it was exactly when every value it supplies is already there |
| Marketplace.ApplyPatchUndoAndMerge | lib/services/marketplace.ts:272 | patching and then re-supplying the old values of the patched fields restores the listing; two patches in a row equal one patch with the later fields laid over the earlier |
| Marketplace.UpdateListing | lib/services/marketplace.ts:266-276 | the first match of the synchronised listings is patched in place and returned; none when absent, with nothing else changed |
| Marketplace.UpdateKeepsValid | lib/services/marketplace.ts:266-276 | an update keeps identities unique unless the patch supplies another listing's identity |
| Marketplace.UpdateCanDuplicateIds | lib/services/marketplace.ts:266-276 | an update supplying another listing's identity leaves a duplicate |
| Marketplace.MarketplaceStats | lib/services/marketplace.ts:232-248 | counts, total volume, and a mean price whose product with the count is the total price, zero with no listings |
| Marketplace.StatsExample | lib/services/marketplace.ts:236-240 | prices 5.5, 2.75 and 8.2 have a mean of 16.45 / 3; no listings give 0 |
| Marketplace.DeleteKeepsPurchaseHistory | lib/services/marketplace.ts:253-261 | deleting a listing keeps every user's purchases and sales and the purchase statistics |
| PurchaseRoute.Handle | app/api/purchase-data/route.ts:18-134 | the checks in order (missing field 400, amount 400, not found 404, price 400, unparsable 500); no rejection records anything; acceptance is exactly admissibility and records one completed purchase with the receipt's id only when the transfer ran |
| PurchaseRoute.AdmissibleWhenValid | app/api/purchase-data/route.ts:40-54 | with unique identities a request is admitted exactly when some listing has its identity and price |
| PurchaseRoute.TransferDoesNotDecide | app/api/purchase-data/route.ts:56-99 | the transfer's outcome changes neither the status nor the number of recorded purchases |
| PurchaseRoute.ServerRejectsEveryPurchase | app/api/purchase-data/route.ts:40-46 | a service with no listings and nothing to synchronise turns every request away |
| SellerDashboard.TrimAll | app/seller-dashboard/page.tsx:99 | one piece per piece, in order, each the trimming of its piece and so without white space at either end |
| SellerDashboard.ParseCategories | app/seller-dashboard/page.tsx:97-100 | every category is non-empty, trimmed and comma-free, and the categories are exactly the non-empty trimmed comma-separated pieces |
| SellerDashboard.ParsePieces | app/seller-dashboard/page.tsx:97-100 | comma-free pieces joined by commas come back trimmed, blank ones dropped, the rest in order |
| SellerDashboard.ParseThree | app/seller-dashboard/page.tsx:97-100 | three categories typed as `a, b, c` are read back as `[a, b, c]` |
| SellerDashboard.ParseTypicalInput | app/seller-dashboard/page.tsx:97-100 | "Weather, Climate, Europe" yields the three categories as typed |
| SellerDashboard.ParseJoinedCategories | app/seller-dashboard/page.tsx:97-100 | well-formed categories joined with commas are read back exactly, in order |
| SellerDashboard.ParseSpacedCategories | app/seller-dashboard/page.tsx:97-100 | white space around two categories does not matter |
| SellerDashboard.ParseBlankCategories | app/seller-dashboard/page.tsx:97-100 | `" , "` yields no category |
| SellerDashboard.ParseEmptyInput | app/seller-dashboard/page.tsx:97-100 | the empty input yields no category |
| SellerDashboard.HandleCreateListing | app/seller-dashboard/page.tsx:88-122 | a listing is created exactly when an account is connected, the four fields are filled and some category remains; it carries the account as seller; every failure leaves the ledger unchanged |
| SellerDashboard.SellerListings | app/seller-dashboard/page.tsx:59 | exactly the listings sold by the account, each as many times as in the store |
| SellerDashboard.SellerListingsPreserveOrder | app/seller-dashboard/page.tsx:59 | the seller's listings keep the store's order: over a concatenation they are those of each part, one after the other |
| SellerDashboard.MeanRating | app/seller-dashboard/page.tsx:66-69 | the mean rating times the count is the total rating; zero with no listings |
| SellerDashboard.LoadDashboard | app/seller-dashboard/page.tsx:49-86 | nothing happens without a connected account; otherwise the shown listings are the seller's listings of the synchronised store in order, `totalListings` is their count, and the sales count, revenue and mean rating follow |
| SellerDashboard.CreatedListingIsShown | app/seller-dashboard/page.tsx:114-122 | a listing created from the dashboard is shown on that seller's dashboard |
| StringOrder.LessIrreflexive | app/data-marketplace/page.tsx:100 | no string sorts before itself |
| StringOrder.LessTransitive | app/data-marketplace/page.tsx:100 | the sort order is transitive |
| StringOrder.LessTotal | app/data-marketplace/page.tsx:100 | distinct strings are ordered one way or the other |
| StringOrder.Insert | app/data-marketplace/page.tsx:96-100 | inserting into a sorted duplicate-free sequence keeps it so and adds exactly the element |
| StringOrder.SortedMembers | app/data-marketplace/page.tsx:96-100 | `Array.from(new Set(xs)).sort()` is strictly sorted with exactly the members of `xs` |
| StringOrder.SortedUnique | app/data-marketplace/page.tsx:96-100 | a strictly sorted sequence is determined by its members |
| StringOrder.SortedMembersIgnoresOrder | app/data-marketplace/page.tsx:96-100 | the sorted members ignore the order and repetitions of the input |
| DataMarketplace.CreateKeepsOthersFresh | lib/services/marketplace.ts:109-124 | creating a listing uses up only its own identity |
| DataMarketplace.Seed | app/data-marketplace/page.tsx:48-59 | each sample is created once, in order, as a copy with a new identity and time, rating 5 and counter 0 |
| DataMarketplace.LoadMarketplace | app/data-marketplace/page.tsx:38-73 | a non-empty store is shown as it is; an empty one is seeded with copies of the samples while the page shows the samples themselves |
| DataMarketplace.SamplesHaveSales | lib/services/marketplace.ts:304-375 | no sample has a zero purchase counter |
| DataMarketplace.SeededPageDiffersFromLedger | app/data-marketplace/page.tsx:47-60 | after seeding, no listing the page shows is one the ledger holds |
| DataMarketplace.LoadAgainShowsLedger | app/data-marketplace/page.tsx:38-73 | a second load neither seeds nor adds and shows the stored listings |
| DataMarketplace.VisibleListings | app/data-marketplace/page.tsx:76-92 | a non-empty query takes the service's matches, a category other than "All" keeps the tagged ones; with neither the page is shown as is |
| DataMarketplace.FilterOrderIrrelevant | app/data-marketplace/page.tsx:76-92 | search then category equals category then search |
| DataMarketplace.VisibleKeepsOrder | app/data-marketplace/page.tsx:85-89 | the category filter keeps the relative order |
| DataMarketplace.AllCategories | app/data-marketplace/page.tsx:96-99 | exactly the categories of some listing |
| DataMarketplace.CategoryOptions | app/data-marketplace/page.tsx:95-101 | "All" first, then the listings' categories, strictly sorted |
| DataMarketplace.CategoryOptionsDistinct | app/data-marketplace/page.tsx:95-101 | the menu has no repetition exactly when no listing is tagged "All" |
| DataMarketplace.CategoryOptionsIgnoreOrder | app/data-marketplace/page.tsx:95-101 | the menu depends only on which listings are present |
| DataMarketplace.Summary | app/data-marketplace/page.tsx:104-116 | count, sum of rows, sum of prices, and a mean rating dividing by `length \|\| 1` |
| DataMarketplace.SummaryOfSampleFigures | app/data-marketplace/page.tsx:104-116 | five listings with the samples' figures total 50975 rows and 26.95 HBAR with mean rating 4.78 |
| DataMarketplace.SampleSummary | app/data-marketplace/page.tsx:104-116 | the samples' figures are 5 listings, 50975 rows, 26.95 HBAR and mean rating 4.78 |
| MyPurchases.Row | app/my-purchases/page.tsx:52-61 | the row carries the purchase's fields and the first listing with the purchase's identity, no earlier listing carrying it |
| MyPurchases.Join | app/my-purchases/page.tsx:51-63 | one row per purchase whose listing is found, in order |
| MyPurchases.JoinAmounts | app/my-purchases/page.tsx:68 | the amount spent is the sum over the kept purchases |
| MyPurchases.JoinRows | app/my-purchases/page.tsx:69-72 | the data points are the rows of the kept purchases' listings |
| MyPurchases.JoinSums | app/my-purchases/page.tsx:67-78 | both totals are taken over the kept purchases |
| MyPurchases.LoadPurchases | app/my-purchases/page.tsx:40-88 | nothing without a connected account; otherwise the joined rows and totals; the ledger synchronises only when the buyer has purchases |
| MyPurchases.DroppedSum | app/my-purchases/page.tsx:51-68 | kept and dropped purchases together account for all the spending |
| MyPurchases.SpendingAccountsForDroppedRows | app/my-purchases/page.tsx:51-68 | the amount shown plus the dropped purchases' amount is the buyer's whole spending |
| MyPurchases.DeletedListingHidesPurchases | app/my-purchases/page.tsx:51-63 | after a listing is deleted its purchases stay in the ledger but leave the page |
| MintingCheck.Utf16Length | scripts/verify-minting.mjs:29 | the JavaScript length lies between the character count and twice it |
| MintingCheck.Utf16LengthValue | scripts/verify-minting.mjs:29 | the JavaScript length is the character count plus the number of characters outside the basic multilingual plane, so the character count when there are none |
| MintingCheck.LedgerIdShape | scripts/verify-minting.mjs:23 | a ledger identity is exactly `0.0.` followed by one or more digits |
| MintingCheck.Classify | scripts/verify-minting.mjs:54-63 | Missing exactly without a value; Configured exactly with a value that validates; otherwise Invalid format |
| MintingCheck.RunChecks | scripts/verify-minting.mjs:51-88 | one report per check in order; all passed exactly when every required check is configured; exit status 1 otherwise |
| MintingCheck.ReadyExactly | scripts/verify-minting.mjs:18-49 | passing means: both identities match `0.0.<digits>`, the key is longer than 50, the network is known |
| MintingCheck.TreasuryNeverDecides | scripts/verify-minting.mjs:43-48 | the optional treasury setting never changes the verdict |
| MintingCheck.LedgerIdExamples | scripts/verify-minting.mjs:23 | `0.0.6990992` matches; `0.0.` and `0.0.12a` do not |

## Left out

- Persistence is not modelled: `localStorage` loading and saving, and JSON (de)serialisation (lib/services/marketplace.ts:278-297). The ledger value stands for the in-memory arrays.
- Exceptions thrown midway through a synchronisation pass are not modelled. This includes malformed JSON in the minted record and a record that is not an object. The model's records are well-typed.
- `Date.now()`, `Math.random()` and `toISOString()` are not modelled. The identities and times they produce are parameters. One pass reads one clock value, where the source may read it once per record.
- Display rounding is not modelled: `Math.round(x * 100) / 100`, `toFixed`, and the two-decimal mean price. Figures are stated before rounding, as exact reals.
- IEEE-754 arithmetic is not modelled. This covers `NaN` from `parseFloat`/`parseInt`, which appear as already-parsed parameters of `HandleCreateListing`.
- Text.Lower: lower-cases ASCII letters only, because full Unicode case mapping (which can change the length) is outside the model.
- StringOrder.Less: compares characters by code point, while `sort` compares UTF-16 code units. The two differ only between characters above U+FFFF and those in U+E000–U+FFFF.
- The Hedera SDK transfer in the purchase route is not modelled. It is an oracle: the transaction id once it has been read (app/api/purchase-data/route.ts:82), or none when a step before that throws. A failure of `client.close()` after that line still records the id.
- Console output, toasts, form resets and React state are not modelled. A page's early return (no account or no connection) is `None`, meaning the page keeps its previous state.
- The fallback to the samples when loading the public marketplace throws (app/data-marketplace/page.tsx:64-66) is not modelled, since the model has no exceptions.
- DataMarketplace.LoadMarketplace: takes the samples as a parameter; `SampleListings` is the source's `SAMPLE_LISTINGS`, and `SampleSummary` and `SamplesHaveSales` state what the page shows with them.
- MintingCheck.RunChecks: the printed lines are represented by the report records, not by the exact console text.
- Any code outside lib/services/marketplace.ts, app/api/purchase-data/route.ts, app/seller-dashboard/page.tsx, app/data-marketplace/page.tsx, app/my-purchases/page.tsx and scripts/verify-minting.mjs is not part of this model: wallet contexts, minting routes, other scripts, components and `test-sync.js`.
- Request bodies of the purchase route are modelled as well-typed optional fields. A `null` or wrongly typed JSON body (a TypeError reaching the 500 branch, or JavaScript coercion in `amount < 0` and `!==`, app/api/purchase-data/route.ts:24-54) is not modelled beyond the `Unparsable` body.

=== FILE: collections.dfy ===
/** Generic helpers shared by the model: an optional value for JavaScript's
    `undefined`, order-preserving filtering (`Array.prototype.filter`) and
    summation (`reduce((sum, x) => sum + f(x), 0)`). */
module Collections {

  datatype Option<+T> = None | Some(value: T) {
    /** `x ?? d`, and also `x || d` when the present value is never falsy. */
    function GetOr(default: T): T
    {
      match this
      case Some(v) => v
      case None => default
    }
  }

  /** The elements of `s` satisfying `p`, in their original order. */
  function Filter<T(!new)>(s: seq<T>, p: T -> bool): (r: seq<T>)
    ensures |r| <= |s|
    ensures forall x :: x in r <==> x in s && p(x)
    ensures forall x :: multiset(r)[x] == if p(x) then multiset(s)[x] else 0
  {
    if s == [] then []
    else
      var init := Filter(s[..|s| - 1], p);
      var last := s[|s| - 1];
      assert s == s[..|s| - 1] + [last];
      assert multiset(s) == multiset(s[..|s| - 1]) + multiset{last};
      if p(last) then init + [last] else init
  }

  /** Filtering commutes with concatenation, so the relative order of the
      kept elements is the order they had in the input. */
  lemma {:induction false} FilterAppend<T(!new)>(a: seq<T>, b: seq<T>, p: T -> bool)
    ensures Filter(a + b, p) == Filter(a, p) + Filter(b, p)
    decreases |b|
  {
    if b == [] {
      assert a + b == a;
    } else {
      var b' := b[..|b| - 1];
      assert (a + b)[..|a + b| - 1] == a + b';
      FilterAppend(a, b', p);
    }
  }

  /** Filtering with a predicate every element satisfies is the identity. */
  lemma {:induction false} FilterAll<T(!new)>(s: seq<T>, p: T -> bool)
    requires forall k :: 0 <= k < |s| ==> p(s[k])
    ensures Filter(s, p) == s
  {
    if s != [] {
      assert s == s[..|s| - 1] + [s[|s| - 1]];
      FilterAll(s[..|s| - 1], p);
    }
  }

  /** Two filters may be applied in either order. */
  lemma {:induction false} FilterCommute<T(!new)>(s: seq<T>, p: T -> bool, q: T -> bool)
    ensures Filter(Filter(s, p), q) == Filter(Filter(s, q), p)
  {
    if s != [] {
      var init := s[..|s| - 1];
      var last := s[|s| - 1];
      FilterCommute(init, p, q);
      if p(last) {
        FilterAppend(Filter(init, p), [last], q);
      }
      if q(last) {
        FilterAppend(Filter(init, q), [last], p);
      }
    }
  }

  /** `s.map(f)` */
  function MapSeq<A, B>(s: seq<A>, f: A -> B): (r: seq<B>)
    ensures |r| == |s|
    ensures forall k :: 0 <= k < |s| ==> r[k] == f(s[k])
  {
    seq(|s|, k requires 0 <= k < |s| => f(s[k]))
  }

  lemma MapPair<A, B>(x: A, y: A, f: A -> B)
    ensures MapSeq([x, y], f) == [f(x), f(y)]
  {
    var r := MapSeq([x, y], f);
    assert r[0] == f(x) && r[1] == f(y);
  }

  lemma MapTriple<A, B>(x: A, y: A, z: A, f: A -> B)
    ensures MapSeq([x, y, z], f) == [f(x), f(y), f(z)]
  {
    var r := MapSeq([x, y, z], f);
    assert r[0] == f(x) && r[1] == f(y) && r[2] == f(z);
  }

  /** `reduce((sum, x) => sum + f(x), 0)` over reals. */
  function SumReal<T>(s: seq<T>, f: T -> real): real
  {
    if s == [] then 0.0 else SumReal(s[..|s| - 1], f) + f(s[|s| - 1])
  }

  /** The same over integers. */
  function SumInt<T>(s: seq<T>, f: T -> int): int
  {
    if s == [] then 0 else SumInt(s[..|s| - 1], f) + f(s[|s| - 1])
  }

  lemma {:induction false} SumRealAppend<T>(a: seq<T>, b: seq<T>, f: T -> real)
    ensures SumReal(a + b, f) == SumReal(a, f) + SumReal(b, f)
    decreases |b|
  {
    if b != [] {
      assert (a + b)[..|a + b| - 1] == a + b[..|b| - 1];
      assert (a + b)[|a + b| - 1] == b[|b| - 1];
      SumRealAppend(a, b[..|b| - 1], f);
      assert SumReal(a + b, f) == SumReal(a + b[..|b| - 1], f) + f(b[|b| - 1]);
    } else {
      assert a + b == a;
    }
  }

  /** What a filter keeps and what its complement keeps add up to the
      whole sum. */
  lemma {:induction false} SumRealPartition<T(!new)>(s: seq<T>, p: T -> bool, q: T -> bool, f: T -> real)
    requires forall x :: q(x) == !p(x)
    ensures SumReal(Filter(s, p), f) + SumReal(Filter(s, q), f) == SumReal(s, f)
  {
    if s != [] {
      var init := s[..|s| - 1];
      var last := s[|s| - 1];
      SumRealPartition(init, p, q, f);
      if p(last) {
        SumRealAppend(Filter(init, p), [last], f);
      } else {
        SumRealAppend(Filter(init, q), [last], f);
      }
    }
  }
}

=== FILE: data_marketplace.dfy ===
/** The decisions of the public marketplace page: the load step that seeds
    an empty store with the sample listings, the search and category
    filter, the category menu and the summary figures. */
module DataMarketplace {
  import opened Collections
  import opened Text
  import opened Model
  import opened TokenSync
  import opened Marketplace
  import opened StringOrder

  // ---------------------------------------------------------------------
  // The sample listings
  // ---------------------------------------------------------------------

  const SampleCount: nat := 5

  // `SAMPLE_LISTINGS`, field by field: entry `k` of each table below
  // belongs to the sample `sample_<k+1>`.

  function SampleId(k: nat): string
  {
    if k == 0 then "sample_1"
    else if k == 1 then "sample_2"
    else if k == 2 then "sample_3"
    else if k == 3 then "sample_4"
    else "sample_5"
  }

  function SampleName(k: nat): string
  {
    if k == 0 then "E-Commerce Sales Analytics"
    else if k == 1 then "Weather Data Europe 2024"
    else if k == 2 then "Real Estate Market Trends"
    else if k == 3 then "Social Media Engagement Metrics"
    else "Supply Chain Logistics Data"
  }

  function SampleDescription(k: nat): string
  {
    if k == 0 then "Comprehensive sales data with customer demographics and purchase patterns"
    else if k == 1 then "Daily weather measurements across major European cities"
    else if k == 2 then "Property listings with pricing and market indicators"
    else if k == 3 then "Platform engagement data and user interaction patterns"
    else "Shipment tracking and delivery performance metrics"
  }

  function SampleCategories(k: nat): seq<string>
  {
    if k == 0 then ["Sales", "E-commerce", "Analytics"]
    else if k == 1 then ["Weather", "Climate", "Europe"]
    else if k == 2 then ["Real Estate", "Market", "Analytics"]
    else if k == 3 then ["Social Media", "Marketing", "Analytics"]
    else ["Logistics", "Supply Chain", "Operations"]
  }

  function SamplePreview(k: nat): seq<string>
  {
    if k == 0 then ["Customer ID", "Amount", "Date", "Category"]
    else if k == 1 then ["City", "Temperature", "Humidity", "Pressure"]
    else if k == 2 then ["Address", "Price", "Bedrooms", "Location"]
    else if k == 3 then ["Post ID", "Likes", "Comments", "Shares"]
    else ["Shipment ID", "Origin", "Destination", "Status"]
  }

  function SampleSeller(k: nat): string
  {
    if k == 0 then "0.0.6990992"
    else if k == 1 then "0.0.7654321"
    else if k == 2 then "0.0.1111111"
    else if k == 3 then "0.0.2222222"
    else "0.0.3333333"
  }

  function SampleHash(k: nat): string
  {
    if k == 0 then "QmX9..."
    else if k == 1 then "QmY8..."
    else if k == 2 then "QmZ7..."
    else if k == 3 then "QmA6..."
    else "QmB5..."
  }

  function SamplePrice(k: nat): real
  {
    if k == 0 then 5.5
    else if k == 1 then 2.75
    else if k == 2 then 8.2
    else if k == 3 then 4.0
    else 6.5
  }

  function SampleRows(k: nat): int
  {
    if k == 0 then 10000
    else if k == 1 then 5475
    else if k == 2 then 15000
    else if k == 3 then 8500
    else 12000
  }

  function SampleRating(k: nat): real
  {
    if k == 0 then 4.8
    else if k == 1 then 4.9
    else if k == 2 then 4.7
    else if k == 3 then 4.6
    else 4.9
  }

  function SamplePurchases(k: nat): int
  {
    if k == 0 then 42
    else if k == 1 then 28
    else if k == 2 then 35
    else if k == 3 then 19
    else 56
  }

  /** Entry `k` of `SAMPLE_LISTINGS`, stamped with `stamp`: the times are
      computed when the module loads (now, and one to four days earlier). */
  function Sample(k: nat, stamp: string): (x: Listing)
    requires k < SampleCount
    ensures x.timestamp == stamp && x.fileUrl.None?
    ensures x.price == SamplePrice(k) && x.rows == SampleRows(k)
    ensures x.rating == Some(SampleRating(k)) && x.purchases == Some(SamplePurchases(k))
  {
    Listing(SampleId(k), SampleName(k), SampleDescription(k), SamplePrice(k), SampleRows(k),
            SampleCategories(k), SampleSeller(k), stamp, SampleHash(k), None, Some(SamplePreview(k)),
            Some(SampleRating(k)), Some(SamplePurchases(k)))
  }

  /** `SAMPLE_LISTINGS` */
  function SampleListings(stamps: seq<string>): (r: seq<Listing>)
    requires |stamps| == SampleCount
    ensures |r| == SampleCount
    ensures forall k :: 0 <= k < SampleCount ==> r[k] == Sample(k, stamps[k])
  {
    seq(SampleCount, k requires 0 <= k < SampleCount => Sample(k, stamps[k]))
  }

  /** The arguments the page passes to `createListing` for a sample. */
  function DraftOf(x: Listing): ListingDraft
  {
    ListingDraft(x.name, x.description, x.price, x.rows, x.categories, x.seller, x.dataHash, x.preview)
  }

  predicate DistinctIds(ids: seq<string>)
  {
    forall i, j :: 0 <= i < j < |ids| ==> ids[i] != ids[j]
  }

  /** Creating a listing uses up only its own identity. */
  lemma CreateKeepsOthersFresh(l: Ledger, d: ListingDraft, id: string, timestamp: string, other: string)
    requires !HasId(l.listings, id) && !HasId(l.listings, other) && other != id
    ensures !HasId(CreateListing(l, d, id, timestamp).0.listings, other)
  {
    var ls := CreateListing(l, d, id, timestamp).0.listings;
    forall k | 0 <= k < |ls|
      ensures ls[k].id != other
    {
      if k < |l.listings| {
        assert ls[k] == l.listings[k];
      }
    }
  }

  /** `createListing` for each of `xs` in turn, with generated identities
      `ids` and times `stamps`. The stored copy keeps the sample's content
      but takes the new identity and time, the default rating and a zero
      counter. */
  function Seed(l: Ledger, xs: seq<Listing>, ids: seq<string>, stamps: seq<string>): (r: Ledger)
    requires |ids| == |xs| && |stamps| == |xs|
    requires DistinctIds(ids)
    requires forall i :: 0 <= i < |ids| ==> !HasId(l.listings, ids[i])
    ensures r.purchases == l.purchases
    ensures |r.listings| == |l.listings| + |xs| && r.listings[..|l.listings|] == l.listings
    ensures forall i :: 0 <= i < |xs| ==>
              r.listings[|l.listings| + i] ==
                xs[i].(id := ids[i], timestamp := stamps[i], fileUrl := None,
                       rating := Some(DefaultRating), purchases := Some(0))
    ensures Valid(l) ==> Valid(r)
    decreases |xs|
  {
    if xs == [] then l
    else
      var l' := CreateListing(l, DraftOf(xs[0]), ids[0], stamps[0]).0;
      forall i | 1 <= i < |ids|
        ensures !HasId(l'.listings, ids[i])
      {
        CreateKeepsOthersFresh(l, DraftOf(xs[0]), ids[0], stamps[0], ids[i]);
      }
      var r := Seed(l', xs[1..], ids[1..], stamps[1..]);
      assert r.listings[..|l.listings|] == r.listings[..|l'.listings|][..|l.listings|];
      assert r.listings[|l.listings|] == l'.listings[|l.listings|];
      r
  }

  // ---------------------------------------------------------------------
  // `loadListings`
  // ---------------------------------------------------------------------

  /** The page's load step: synchronise, read every listing (which
      synchronises again) and, when there are none, store a copy of each
      sample while showing the samples themselves. The result is the
      ledger afterwards and the listings the page shows. `samples` is
      `SAMPLE_LISTINGS` (`SampleListings`), and `ids` and `stamps` are the
      identities and times `createListing` generates for the copies. */
  function LoadMarketplace(l: Ledger, src: MintSource, samples: seq<Listing>, ids: seq<string>,
                           stamps: seq<string>): (r: (Ledger, seq<Listing>))
    requires |ids| == |samples| && |stamps| == |samples|
    requires DistinctIds(ids)
    ensures Sync(l, src).listings != [] ==> r == (Sync(l, src), Sync(l, src).listings)
    ensures Sync(l, src).listings == [] ==>
              && r.1 == samples
              && r.0.purchases == l.purchases
              && |r.0.listings| == |samples|
              && forall i :: 0 <= i < |samples| ==>
                   r.0.listings[i] == samples[i].(id := ids[i], timestamp := stamps[i], fileUrl := None,
                                                  rating := Some(DefaultRating), purchases := Some(0))
    ensures Valid(l) ==> Valid(r.0)
  {
    var s := Sync(l, src);
    SyncTwice(l, src, src);
    var (s2, stored) := GetAllListings(s, src);
    if |stored| == 0 then
      (Seed(s2, samples, ids, stamps), samples)
    else
      (s2, stored)
  }

  /** No sample has a zero purchase counter. */
  lemma SamplesHaveSales(stamps: seq<string>)
    requires |stamps| == SampleCount
    ensures forall x :: x in SampleListings(stamps) ==> x.purchases != Some(0)
  {
    forall k | 0 <= k < SampleCount
      ensures SamplePurchases(k) > 0
    {
    }
  }

  /** What the page shows right after seeding are the samples, not the
      stored copies: when no sample has a zero counter (true of the five,
      by `SamplesHaveSales`), each shown listing differs from every stored
      one, since the copies carry a zero counter. */
  lemma SeededPageDiffersFromLedger(l: Ledger, src: MintSource, samples: seq<Listing>, ids: seq<string>,
                                    stamps: seq<string>)
    requires |ids| == |samples| && |stamps| == |samples|
    requires DistinctIds(ids)
    requires forall x :: x in samples ==> x.purchases != Some(0)
    requires Sync(l, src).listings == []
    ensures var r := LoadMarketplace(l, src, samples, ids, stamps);
            forall x :: x in r.1 ==> x !in r.0.listings
  {
    var r := LoadMarketplace(l, src, samples, ids, stamps);
    forall x | x in r.1
      ensures x !in r.0.listings
    {
      forall k | 0 <= k < |r.0.listings|
        ensures r.0.listings[k] != x
      {
        assert r.0.listings[k].purchases == Some(0);
      }
    }
  }

  /** Loading again after a load neither seeds nor adds anything: the page
      then shows the stored listings. */
  lemma LoadAgainShowsLedger(l: Ledger, src: MintSource, samples: seq<Listing>, ids: seq<string>,
                             stamps: seq<string>, ids': seq<string>, stamps': seq<string>)
    requires samples != []
    requires |ids| == |samples| && |stamps| == |samples| && |ids'| == |samples| && |stamps'| == |samples|
    requires DistinctIds(ids) && DistinctIds(ids')
    ensures var r := LoadMarketplace(l, src, samples, ids, stamps).0;
            LoadMarketplace(r, src, samples, ids', stamps') == (r, r.listings)
  {
    var s := Sync(l, src);
    var r := LoadMarketplace(l, src, samples, ids, stamps).0;
    if s.listings == [] {
      assert forall k :: 0 <= k < |src.entries| ==> src.entries[k].metadata.None? by {
        forall k | 0 <= k < |src.entries|
          ensures src.entries[k].metadata.None?
        {
          assert src.entries[k] in src.entries;
        }
      }
      SyncSkipsBareRecords(r.listings, src.entries, src);
      assert r.listings[0] in r.listings;
    } else {
      SyncTwice(l, src, src);
    }
  }

  // ---------------------------------------------------------------------
  // The search and category filter
  // ---------------------------------------------------------------------

  /** The filter effect: a non-empty query replaces the shown listings by
      the service's search result (over the service's listings, not the
      page's); a category other than "All" then keeps the listings tagged
      with it. */
  function VisibleListings(page: seq<Listing>, service: seq<Listing>, query: string, category: string)
    : (r: seq<Listing>)
    ensures query == "" && category == "All" ==> r == page
    ensures forall x :: x in r <==>
              && (if query == "" then x in page else x in service && MatchesQuery(x, Lower(query)))
              && (category == "All" || category in x.categories)
  {
    var base := if query != "" then SearchListings(service, query) else page;
    if category != "All" then ListingsByCategory(base, category) else base
  }

  /** When the page shows what the service holds, searching then filtering
      by category is the same as filtering by category then searching. */
  lemma FilterOrderIrrelevant(ls: seq<Listing>, query: string, category: string)
    requires query != "" && category != "All"
    ensures VisibleListings(ls, ls, query, category) == SearchListings(ListingsByCategory(ls, category), query)
  {
    var q := Lower(query);
    FilterCommute(ls, x => MatchesQuery(x, q), x => InCategory(x, category));
  }

  /** The filter keeps the relative order of what it shows. */
  lemma VisibleKeepsOrder(a: seq<Listing>, b: seq<Listing>, service: seq<Listing>, category: string)
    ensures VisibleListings(a + b, service, "", category)
            == VisibleListings(a, service, "", category) + VisibleListings(b, service, "", category)
  {
    QueriesPreserveOrder(a, b, "", category);
  }

  // ---------------------------------------------------------------------
  // The category menu
  // ---------------------------------------------------------------------

  /** Every category of every listing, in order, with repetitions. */
  function AllCategories(ls: seq<Listing>): (r: seq<string>)
    ensures forall c :: c in r <==> exists x :: x in ls && c in x.categories
  {
    if ls == [] then []
    else
      var init := ls[..|ls| - 1];
      var last := ls[|ls| - 1];
      assert ls == init + [last];
      AllCategories(init) + last.categories
  }

  /** `['All', ...Array.from(cats).sort()]` */
  function CategoryOptions(ls: seq<Listing>): (r: seq<string>)
    ensures |r| >= 1 && r[0] == "All"
    ensures StrictlySorted(r[1..])
    ensures forall c :: c in r[1..] <==> exists x :: x in ls && c in x.categories
  {
    ["All"] + SortedMembers(AllCategories(ls))
  }

  /** The menu offers each category once, except that a listing tagged
      "All" makes "All" appear twice. */
  lemma CategoryOptionsDistinct(ls: seq<Listing>)
    ensures var r := CategoryOptions(ls);
            (forall i, j :: 0 <= i < j < |r| ==> r[i] != r[j]) <==>
            (forall x :: x in ls ==> "All" !in x.categories)
  {
    var r := CategoryOptions(ls);
    var tail := r[1..];
    if forall x :: x in ls ==> "All" !in x.categories {
      forall i, j | 0 <= i < j < |r|
        ensures r[i] != r[j]
      {
        if i == 0 {
          assert r[j] == tail[j - 1] && r[j] in tail;
        } else {
          SortedDistinctElements(tail, i - 1, j - 1);
        }
      }
    } else {
      var x :| x in ls && "All" in x.categories;
      assert "All" in tail;
      var j :| 0 <= j < |tail| && tail[j] == "All";
      assert r[0] == r[j + 1];
    }
  }

  /** The menu depends only on which categories occur, not on the order of
      the listings. */
  lemma CategoryOptionsIgnoreOrder(a: seq<Listing>, b: seq<Listing>)
    requires forall x :: x in a <==> x in b
    ensures CategoryOptions(a) == CategoryOptions(b)
  {
    SortedMembersIgnoresOrder(AllCategories(a), AllCategories(b));
  }

  // ---------------------------------------------------------------------
  // The summary figures
  // ---------------------------------------------------------------------

  /** The page's figures before their display rounding. */
  datatype PageStats = PageStats(
    totalListings: nat,
    totalDataPoints: int,
    totalValue: real,
    avgRating: real)

  function Rows(x: Listing): int
  {
    x.rows
  }

  /** The mean rating divides by `listings.length || 1`, so no listings give
      a mean of zero. */
  function Summary(ls: seq<Listing>): (r: PageStats)
    ensures r.totalListings == |ls|
    ensures r.totalDataPoints == SumInt(ls, Rows) && r.totalValue == SumReal(ls, Price)
    ensures ls == [] ==> r == PageStats(0, 0, 0.0, 0.0)
    ensures ls != [] ==> r.avgRating * (|ls| as real) == SumReal(ls, RatingOrZero)
  {
    var n := if |ls| == 0 then 1 else |ls|;
    PageStats(|ls|, SumInt(ls, Rows), SumReal(ls, Price), SumReal(ls, RatingOrZero) / (n as real))
  }

  lemma SumOfFive<T>(s: seq<T>, f: T -> real, g: T -> int)
    requires |s| == 5
    ensures SumReal(s, f) == f(s[0]) + f(s[1]) + f(s[2]) + f(s[3]) + f(s[4])
    ensures SumInt(s, g) == g(s[0]) + g(s[1]) + g(s[2]) + g(s[3]) + g(s[4])
  {
    assert s[..1][..0] == [] && s[..2][..1] == s[..1] && s[..3][..2] == s[..2];
    assert s[..4][..3] == s[..3] && s[..5][..4] == s[..4] && s[..5] == s;
    assert SumReal(s[..1], f) == f(s[0]) && SumInt(s[..1], g) == g(s[0]);
    assert SumReal(s[..2], f) == SumReal(s[..1], f) + f(s[1]) && SumInt(s[..2], g) == SumInt(s[..1], g) + g(s[1]);
    assert SumReal(s[..3], f) == SumReal(s[..2], f) + f(s[2]) && SumInt(s[..3], g) == SumInt(s[..2], g) + g(s[2]);
    assert SumReal(s[..4], f) == SumReal(s[..3], f) + f(s[3]) && SumInt(s[..4], g) == SumInt(s[..3], g) + g(s[3]);
    assert SumReal(s, f) == SumReal(s[..4], f) + f(s[4]) && SumInt(s, g) == SumInt(s[..4], g) + g(s[4]);
  }

  /** The figures of a freshly seeded store. */
  lemma SampleSummary(stamps: seq<string>)
    requires |stamps| == SampleCount
    ensures Summary(SampleListings(stamps)) == PageStats(5, 50975, 26.95, 4.78)
  {
    SummaryOfSampleFigures(SampleListings(stamps));
  }

  /** Any five listings carrying the samples' rows, prices and ratings have
      the samples' figures. */
  lemma SummaryOfSampleFigures(s: seq<Listing>)
    requires |s| == SampleCount
    requires forall k :: 0 <= k < SampleCount ==>
               s[k].rows == SampleRows(k) && s[k].price == SamplePrice(k) && s[k].rating == Some(SampleRating(k))
    ensures Summary(s) == PageStats(5, 50975, 26.95, 4.78)
  {
    SumOfFive(s, Price, Rows);
    SumOfFive(s, RatingOrZero, Rows);
  }
}

=== FILE: marketplace.dfy ===
/** `MarketplaceService`: the listing and purchase ledger. Every operation is
    a pure function from the ledger before the call to the ledger after it
    (and the value the method returns). Reads that synchronise first
    (`getAllListings`, `getListingById` and the methods built on it) take the
    mint source and run the pass before answering. */
module Marketplace {
  import opened Collections
  import opened Text
  import opened Model
  import opened TokenSync

  /** The invariant the ledger keeps: no two listings share an identity. */
  predicate Valid(l: Ledger)
  {
    UniqueIds(l.listings)
  }

  // ---------------------------------------------------------------------
  // Synchronisation and the reads that trigger it
  // ---------------------------------------------------------------------

  /** `syncTokenizedData`: absorbs the minted records into the listings,
      never touching purchases or existing listings. */
  function Sync(l: Ledger, src: MintSource): (r: Ledger)
    ensures r.purchases == l.purchases
    ensures |l.listings| <= |r.listings| && r.listings[..|l.listings|] == l.listings
    ensures forall e :: e in src.entries && e.metadata.Some? ==> HasId(r.listings, DerivedId(e))
    ensures Valid(l) ==> Valid(r)
  {
    SyncCovers(l.listings, src.entries, src);
    SyncKeepsUniqueIds(l.listings, src.entries, src);
    Ledger(SyncEntries(l.listings, src.entries, src), l.purchases)
  }

  /** A listing present before a pass is found unchanged after it. */
  lemma SyncKeepsFind(l: Ledger, src: MintSource, id: string)
    requires HasId(l.listings, id)
    ensures FindListing(Sync(l, src).listings, id) == FindListing(l.listings, id)
  {
    var ls := l.listings;
    var r := Sync(l, src).listings;
    var k := FirstIndex(ls, id).value;
    forall j | 0 <= j <= k
      ensures r[j] == ls[j]
    {
      assert r[..|ls|][j] == r[j];
    }
    FirstIndexAt(r, id, k);
  }

  /** A pass keeps every identity present before it. */
  lemma SyncKeepsId(l: Ledger, src: MintSource, id: string)
    requires HasId(l.listings, id)
    ensures HasId(Sync(l, src).listings, id)
  {
    SyncKeepsFind(l, src, id);
  }

  /** Synchronising an already synchronised ledger changes nothing. */
  lemma SyncTwice(l: Ledger, src: MintSource, src': MintSource)
    requires src'.entries == src.entries
    ensures Sync(Sync(l, src), src') == Sync(l, src)
  {
    SyncIdempotent(l.listings, src.entries, src, src');
  }

  /** `getAllListings`: synchronise, then return every listing in order.
      The answer starts with the listings held before the call, unchanged,
      and covers every minted record with metadata. */
  function GetAllListings(l: Ledger, src: MintSource): (r: (Ledger, seq<Listing>))
    ensures r.0 == Sync(l, src) && r.1 == r.0.listings
    ensures |l.listings| <= |r.1| && r.1[..|l.listings|] == l.listings
    ensures forall e :: e in src.entries && e.metadata.Some? ==> HasId(r.1, DerivedId(e))
    ensures r.0.purchases == l.purchases
  {
    var s := Sync(l, src);
    (s, s.listings)
  }

  /** `getListingById`: synchronise, then the first listing with `id`. */
  function GetListingById(l: Ledger, src: MintSource, id: string): (r: (Ledger, Option<Listing>))
    ensures r.0 == Sync(l, src)
    ensures r.1.None? <==> !HasId(r.0.listings, id)
    ensures r.1.Some? ==> r.1.value in r.0.listings && r.1.value.id == id
    ensures HasId(l.listings, id) ==> r.1 == FindListing(l.listings, id)
  {
    var s := Sync(l, src);
    if HasId(l.listings, id) then
      SyncKeepsFind(l, src, id);
      (s, FindListing(s.listings, id))
    else
      (s, FindListing(s.listings, id))
  }

  // ---------------------------------------------------------------------
  // Creating listings
  // ---------------------------------------------------------------------

  /** The caller-supplied fields of `createListing`. */
  datatype ListingDraft = ListingDraft(
    name: string,
    description: string,
    price: real,
    rows: int,
    categories: seq<string>,
    seller: string,
    dataHash: string,
    preview: Option<seq<string>>)

  /** `createListing`: `id` and `timestamp` stand for the generated
      `listing_<now>_<random>` identity and the ISO time of the call. */
  function CreateListing(l: Ledger, d: ListingDraft, id: string, timestamp: string): (r: (Ledger, Listing))
    requires !HasId(l.listings, id)
    ensures r.0.listings == l.listings + [r.1]
    ensures r.0.purchases == l.purchases
    ensures r.1.id == id && r.1.timestamp == timestamp
    ensures r.1.name == d.name && r.1.description == d.description
    ensures r.1.price == d.price && r.1.rows == d.rows
    ensures r.1.categories == d.categories && r.1.seller == d.seller
    ensures r.1.dataHash == d.dataHash && r.1.preview == d.preview && r.1.fileUrl.None?
    ensures r.1.rating == Some(DefaultRating) && PurchaseCount(r.1) == 0
    ensures Valid(l) ==> Valid(r.0)
  {
    var listing := Listing(id, d.name, d.description, d.price, d.rows, d.categories, d.seller,
                           timestamp, d.dataHash, None, d.preview, Some(DefaultRating), Some(0));
    (Ledger(l.listings + [listing], l.purchases), listing)
  }

  // ---------------------------------------------------------------------
  // Queries over the current listings (no synchronisation)
  // ---------------------------------------------------------------------

  predicate InCategory(l: Listing, category: string)
  {
    category in l.categories
  }

  /** `getListingsByCategory`: exactly the listings tagged `category`. */
  function ListingsByCategory(ls: seq<Listing>, category: string): (r: seq<Listing>)
    ensures |r| <= |ls|
    ensures forall x :: x in r <==> x in ls && category in x.categories
  {
    Filter(ls, x => InCategory(x, category))
  }

  /** Case-insensitive match of an already lower-cased query against the
      name or the description. */
  predicate MatchesQuery(l: Listing, lowered: string)
  {
    Contains(Lower(l.name), lowered) || Contains(Lower(l.description), lowered)
  }

  /** `searchListings`: exactly the listings whose lower-cased name or
      description contains the lower-cased query. */
  function SearchListings(ls: seq<Listing>, query: string): (r: seq<Listing>)
    ensures |r| <= |ls|
    ensures forall x :: x in r <==>
              (x in ls &&
               ((exists i :: OccursAt(Lower(x.name), Lower(query), i)) ||
                (exists i :: OccursAt(Lower(x.description), Lower(query), i))))
  {
    var q := Lower(query);
    Filter(ls, x => MatchesQuery(x, q))
  }

  /** Both queries keep the listings' relative order: over a concatenation
      they answer with the concatenation of the answers. */
  lemma QueriesPreserveOrder(a: seq<Listing>, b: seq<Listing>, query: string, category: string)
    ensures SearchListings(a + b, query) == SearchListings(a, query) + SearchListings(b, query)
    ensures ListingsByCategory(a + b, category) == ListingsByCategory(a, category) + ListingsByCategory(b, category)
  {
    var q := Lower(query);
    FilterAppend(a, b, x => MatchesQuery(x, q));
    FilterAppend(a, b, x => InCategory(x, category));
  }

  /** The empty query matches every listing. */
  lemma SearchEmptyQuery(ls: seq<Listing>)
    ensures SearchListings(ls, "") == ls
  {
    forall k | 0 <= k < |ls|
      ensures MatchesQuery(ls[k], Lower(""))
    {
      ContainsEmpty(Lower(ls[k].name));
    }
    FilterAll(ls, x => MatchesQuery(x, Lower("")));
  }

  /** Searching "weather" finds a listing named "Weather Data Europe 2024"
      whatever the letter case of the query. */
  lemma SearchFindsWeather(ls: seq<Listing>, x: Listing)
    requires x in ls && x.name == "Weather Data Europe 2024"
    ensures x in SearchListings(ls, "weather") && x in SearchListings(ls, "WEATHER")
  {
    var n := Lower(x.name)[..7];
    var w := Lower("weather");
    var u := Lower("WEATHER");
    forall i | 0 <= i < 7
      ensures n[i] == w[i] == u[i]
    {
      if i == 0 { assert n[0] == LowerChar('W') == 'w'; }
    }
    assert OccursAt(Lower(x.name), w, 0) && OccursAt(Lower(x.name), u, 0);
  }

  /** `getUserPurchases`: the purchases whose buyer is `user`, in order. */
  function UserPurchases(ps: seq<Purchase>, user: string): (r: seq<Purchase>)
    ensures |r| <= |ps|
    ensures forall p :: p in r <==> p in ps && p.buyerId == user
    ensures forall p :: multiset(r)[p] == if p.buyerId == user then multiset(ps)[p] else 0
  {
    Filter(ps, (p: Purchase) => p.buyerId == user)
  }

  /** `getUserSales`: the purchases whose seller is `user`, in order. */
  function UserSales(ps: seq<Purchase>, user: string): (r: seq<Purchase>)
    ensures |r| <= |ps|
    ensures forall p :: p in r <==> p in ps && p.sellerId == user
    ensures forall p :: multiset(r)[p] == if p.sellerId == user then multiset(ps)[p] else 0
  {
    Filter(ps, (p: Purchase) => p.sellerId == user)
  }

  /** Both purchase queries keep the purchases' relative order: over a
      concatenation they answer with the concatenation of the answers. */
  lemma PurchaseQueriesPreserveOrder(a: seq<Purchase>, b: seq<Purchase>, user: string)
    ensures UserPurchases(a + b, user) == UserPurchases(a, user) + UserPurchases(b, user)
    ensures UserSales(a + b, user) == UserSales(a, user) + UserSales(b, user)
  {
    FilterAppend(a, b, (p: Purchase) => p.buyerId == user);
    FilterAppend(a, b, (p: Purchase) => p.sellerId == user);
  }

  /** `getPurchaseById`: the first purchase with `id`, if any. */
  function PurchaseById(ps: seq<Purchase>, id: string): (r: Option<Purchase>)
    ensures r.None? <==> forall k :: 0 <= k < |ps| ==> ps[k].id != id
    ensures r.Some? ==> exists k :: 0 <= k < |ps| && ps[k] == r.value && r.value.id == id &&
                                   forall j :: 0 <= j < k ==> ps[j].id != id
  {
    if ps == [] then None
    else if ps[0].id == id then Some(ps[0])
    else
      var r := PurchaseById(ps[1..], id);
      assert forall k :: 1 <= k < |ps| ==> ps[k] == ps[1..][k - 1];
      if r.Some? then
        var k :| 0 <= k < |ps[1..]| && ps[1..][k] == r.value && r.value.id == id &&
                 forall j :: 0 <= j < k ==> ps[1..][j].id != id;
        assert ps[k + 1] == r.value;
        r
      else
        r
  }

  // ---------------------------------------------------------------------
  // Recording purchases
  // ---------------------------------------------------------------------

  /** Add one to the counter of the first listing carrying `id`, reading an
      absent counter as zero; no other listing changes. */
  function BumpCounter(ls: seq<Listing>, id: string): (r: seq<Listing>)
    ensures |r| == |ls|
    ensures forall k :: 0 <= k < |ls| && FirstIndex(ls, id) != Some(k) ==> r[k] == ls[k]
    ensures forall k :: 0 <= k < |ls| && FirstIndex(ls, id) == Some(k) ==>
              r[k] == ls[k].(purchases := Some(PurchaseCount(ls[k]) + 1))
    ensures !HasId(ls, id) ==> r == ls
  {
    match FirstIndex(ls, id)
    case None => ls
    case Some(k) => ls[k := ls[k].(purchases := Some(PurchaseCount(ls[k]) + 1))]
  }

  /** The caller-supplied fields of `recordPurchase`. */
  datatype PurchaseOrder = PurchaseOrder(
    buyerId: string,
    sellerId: string,
    dataId: string,
    amount: real,
    transactionId: Option<string>)

  /** `recordPurchase`: `id` and `timestamp` stand for the generated
      `purchase_<now>_<random>` identity and the time of the call. The
      counter update goes through `getListingById`, so the listings are
      synchronised first. */
  function RecordPurchase(l: Ledger, src: MintSource, o: PurchaseOrder, id: string, timestamp: string)
    : (r: (Ledger, Purchase))
    ensures r.1.status == Completed && r.1.id == id && r.1.timestamp == timestamp
    ensures r.1.buyerId == o.buyerId && r.1.sellerId == o.sellerId && r.1.dataId == o.dataId
    ensures r.1.amount == o.amount && r.1.transactionId == o.transactionId
    ensures r.0.purchases == l.purchases + [r.1]
    ensures r.0.listings == BumpCounter(Sync(l, src).listings, o.dataId)
    ensures Valid(l) ==> Valid(r.0)
  {
    var p := Purchase(id, o.buyerId, o.sellerId, o.dataId, o.amount, timestamp, o.transactionId, Completed);
    var s := Sync(l, src);
    (Ledger(BumpCounter(s.listings, o.dataId), l.purchases + [p]), p)
  }

  /** The purchase counter of the listing with `id` (zero when absent). */
  function CounterOf(ls: seq<Listing>, id: string): int
  {
    match FindListing(ls, id)
    case Some(x) => PurchaseCount(x)
    case None => 0
  }

  /** Recording a purchase of a listing present before the call raises its
      counter by exactly one. */
  lemma RecordPurchaseCounts(l: Ledger, src: MintSource, o: PurchaseOrder, id: string, timestamp: string)
    requires HasId(l.listings, o.dataId)
    ensures CounterOf(RecordPurchase(l, src, o, id, timestamp).0.listings, o.dataId)
            == CounterOf(l.listings, o.dataId) + 1
  {
    var s := Sync(l, src).listings;
    SyncKeepsFind(l, src, o.dataId);
    var r := BumpCounter(s, o.dataId);
    var k := FirstIndex(s, o.dataId).value;
    FirstIndexAt(r, o.dataId, k);
  }

  /** Recording a purchase keeps every identity present before it. */
  lemma RecordPurchaseKeepsId(l: Ledger, src: MintSource, o: PurchaseOrder, id: string, timestamp: string,
                              dataId: string)
    requires HasId(l.listings, dataId)
    ensures HasId(RecordPurchase(l, src, o, id, timestamp).0.listings, dataId)
  {
    SyncKeepsId(l, src, dataId);
    var s := Sync(l, src).listings;
    var k := FirstIndex(s, dataId).value;
    assert BumpCounter(s, o.dataId)[k].id == dataId;
  }

  /** Recording a purchase of an unknown listing changes no listing beyond
      what the synchronisation adds. */
  lemma RecordPurchaseUnknown(l: Ledger, src: MintSource, o: PurchaseOrder, id: string, timestamp: string)
    requires !HasId(Sync(l, src).listings, o.dataId)
    ensures RecordPurchase(l, src, o, id, timestamp).0.listings == Sync(l, src).listings
  {
  }

  /** Fresh identities and times for a run of generated records. */
  datatype Stamp = Stamp(id: string, timestamp: string)

  /** A run of `recordPurchase` calls. */
  function RecordAll(l: Ledger, src: MintSource, orders: seq<PurchaseOrder>, stamps: seq<Stamp>): Ledger
    requires |stamps| == |orders|
    decreases |orders|
  {
    if orders == [] then l
    else RecordAll(RecordPurchase(l, src, orders[0], stamps[0].id, stamps[0].timestamp).0,
                   src, orders[1..], stamps[1..])
  }

  /** N purchases of a listing present before the run raise its counter by
      N and append N purchases. */
  lemma {:induction false} RepeatedPurchasesCount(l: Ledger, src: MintSource, orders: seq<PurchaseOrder>,
                                                  stamps: seq<Stamp>, dataId: string)
    requires |stamps| == |orders|
    requires HasId(l.listings, dataId)
    requires forall k :: 0 <= k < |orders| ==> orders[k].dataId == dataId
    ensures CounterOf(RecordAll(l, src, orders, stamps).listings, dataId) == CounterOf(l.listings, dataId) + |orders|
    ensures |RecordAll(l, src, orders, stamps).purchases| == |l.purchases| + |orders|
    decreases |orders|
  {
    if orders != [] {
      var next := RecordPurchase(l, src, orders[0], stamps[0].id, stamps[0].timestamp).0;
      RecordPurchaseCounts(l, src, orders[0], stamps[0].id, stamps[0].timestamp);
      RecordPurchaseKeepsId(l, src, orders[0], stamps[0].id, stamps[0].timestamp, dataId);
      RepeatedPurchasesCount(next, src, orders[1..], stamps[1..], dataId);
    }
  }

  // ---------------------------------------------------------------------
  // Deleting and updating listings
  // ---------------------------------------------------------------------

  /** `deleteListing`: removes the first listing with `id` and answers true;
      answers false and changes nothing when there is none. Purchases are
      never touched. */
  function DeleteListing(l: Ledger, id: string): (r: (Ledger, bool))
    ensures r.1 <==> HasId(l.listings, id)
    ensures r.0.purchases == l.purchases
    ensures !r.1 ==> r.0 == l
    ensures r.1 ==> |r.0.listings| == |l.listings| - 1
    ensures r.1 ==> var k := FirstIndex(l.listings, id).value;
                    r.0.listings == l.listings[..k] + l.listings[k + 1..]
    ensures Valid(l) ==> Valid(r.0) && !HasId(r.0.listings, id)
  {
    match FirstIndex(l.listings, id)
    case None => (l, false)
    case Some(k) =>
      RemoveAt(l.listings, id, k);
      (Ledger(l.listings[..k] + l.listings[k + 1..], l.purchases), true)
  }

  /** Removing the only listing carrying `id` keeps the other identities
      unique and leaves none carrying `id`. */
  lemma RemoveAt(ls: seq<Listing>, id: string, k: nat)
    requires k < |ls| && ls[k].id == id
    ensures UniqueIds(ls) ==> UniqueIds(ls[..k] + ls[k + 1..]) && !HasId(ls[..k] + ls[k + 1..], id)
  {
    var rest := ls[..k] + ls[k + 1..];
    assert forall j :: 0 <= j < |rest| ==> rest[j] == (if j < k then ls[j] else ls[j + 1]);
    if UniqueIds(ls) {
      forall j | 0 <= j < |rest|
        ensures rest[j].id != id
      {
        assert rest[j] == ls[if j < k then j else j + 1];
      }
    }
  }

  /** Creating a listing and deleting it again restores the ledger. */
  lemma CreateThenDelete(l: Ledger, d: ListingDraft, id: string, timestamp: string)
    requires !HasId(l.listings, id)
    ensures DeleteListing(CreateListing(l, d, id, timestamp).0, id) == (l, true)
  {
    var c := CreateListing(l, d, id, timestamp).0;
    var k := |l.listings|;
    assert c.listings[k].id == id;
    assert FirstIndex(c.listings, id) == Some(k) by {
      assert HasId(c.listings, id);
      assert forall j :: 0 <= j < k ==> c.listings[j] == l.listings[j];
    }
    assert c.listings[..k] + c.listings[k + 1..] == l.listings;
  }

  /** `Partial<DataListing>`: each field is `None` when not supplied. The
      optional fields may be supplied as `undefined`, which `Object.assign`
      copies, hence the nested option. */
  datatype ListingPatch = ListingPatch(
    id: Option<string>,
    name: Option<string>,
    description: Option<string>,
    price: Option<real>,
    rows: Option<int>,
    categories: Option<seq<string>>,
    seller: Option<string>,
    timestamp: Option<string>,
    dataHash: Option<string>,
    fileUrl: Option<Option<string>>,
    preview: Option<Option<seq<string>>>,
    rating: Option<Option<real>>,
    purchases: Option<Option<int>>)

  const NoChanges: ListingPatch :=
    ListingPatch(None, None, None, None, None, None, None, None, None, None, None, None, None)

  /** The patch that supplies every field of `y`. */
  function PatchOf(y: Listing): ListingPatch
  {
    ListingPatch(
      Some(y.id), Some(y.name), Some(y.description), Some(y.price), Some(y.rows), Some(y.categories),
      Some(y.seller), Some(y.timestamp), Some(y.dataHash), Some(y.fileUrl), Some(y.preview),
      Some(y.rating), Some(y.purchases))
  }

  /** Every field the patch supplies already holds that value in `x`. */
  predicate AgreesWith(x: Listing, p: ListingPatch)
  {
    && (p.id.None? || p.id.value == x.id)
    && (p.name.None? || p.name.value == x.name)
    && (p.description.None? || p.description.value == x.description)
    && (p.price.None? || p.price.value == x.price)
    && (p.rows.None? || p.rows.value == x.rows)
    && (p.categories.None? || p.categories.value == x.categories)
    && (p.seller.None? || p.seller.value == x.seller)
    && (p.timestamp.None? || p.timestamp.value == x.timestamp)
    && (p.dataHash.None? || p.dataHash.value == x.dataHash)
    && (p.fileUrl.None? || p.fileUrl.value == x.fileUrl)
    && (p.preview.None? || p.preview.value == x.preview)
    && (p.rating.None? || p.rating.value == x.rating)
    && (p.purchases.None? || p.purchases.value == x.purchases)
  }

  /** `Object.assign(listing, updates)`: the result holds every value the
      patch supplies, the empty patch changes nothing, and a patch supplying
      every field replaces the listing whatever it was. */
  function ApplyPatch(x: Listing, p: ListingPatch): (r: Listing)
    ensures p == NoChanges ==> r == x
    ensures forall y :: p == PatchOf(y) ==> r == y
    ensures AgreesWith(r, p)
  {
    Listing(
      p.id.GetOr(x.id), p.name.GetOr(x.name), p.description.GetOr(x.description),
      p.price.GetOr(x.price), p.rows.GetOr(x.rows), p.categories.GetOr(x.categories),
      p.seller.GetOr(x.seller), p.timestamp.GetOr(x.timestamp), p.dataHash.GetOr(x.dataHash),
      p.fileUrl.GetOr(x.fileUrl), p.preview.GetOr(x.preview), p.rating.GetOr(x.rating),
      p.purchases.GetOr(x.purchases))
  }

  /** An empty patch changes nothing, and applying a patch twice is the same
      as applying it once. */
  lemma ApplyPatchLaws(x: Listing, p: ListingPatch)
    ensures ApplyPatch(x, NoChanges) == x
    ensures ApplyPatch(ApplyPatch(x, p), p) == ApplyPatch(x, p)
  {
  }

  /** A patch leaves the listing as it was exactly when it only supplies
      values the listing already holds. */
  lemma ApplyPatchUnchanged(x: Listing, p: ListingPatch)
    ensures ApplyPatch(x, p) == x <==> AgreesWith(x, p)
  {
  }

  /** The patch holding `x`'s values for exactly the fields `p` supplies. */
  function UndoPatch(x: Listing, p: ListingPatch): ListingPatch
  {
    ListingPatch(
      if p.id.Some? then Some(x.id) else None,
      if p.name.Some? then Some(x.name) else None,
      if p.description.Some? then Some(x.description) else None,
      if p.price.Some? then Some(x.price) else None,
      if p.rows.Some? then Some(x.rows) else None,
      if p.categories.Some? then Some(x.categories) else None,
      if p.seller.Some? then Some(x.seller) else None,
      if p.timestamp.Some? then Some(x.timestamp) else None,
      if p.dataHash.Some? then Some(x.dataHash) else None,
      if p.fileUrl.Some? then Some(x.fileUrl) else None,
      if p.preview.Some? then Some(x.preview) else None,
      if p.rating.Some? then Some(x.rating) else None,
      if p.purchases.Some? then Some(x.purchases) else None)
  }

  /** Two successive `Object.assign` calls are one call with the later
      patch's fields laid over the earlier's. */
  function MergePatches(p: ListingPatch, q: ListingPatch): ListingPatch
  {
    ListingPatch(
      if q.id.Some? then q.id else p.id,
      if q.name.Some? then q.name else p.name,
      if q.description.Some? then q.description else p.description,
      if q.price.Some? then q.price else p.price,
      if q.rows.Some? then q.rows else p.rows,
      if q.categories.Some? then q.categories else p.categories,
      if q.seller.Some? then q.seller else p.seller,
      if q.timestamp.Some? then q.timestamp else p.timestamp,
      if q.dataHash.Some? then q.dataHash else p.dataHash,
      if q.fileUrl.Some? then q.fileUrl else p.fileUrl,
      if q.preview.Some? then q.preview else p.preview,
      if q.rating.Some? then q.rating else p.rating,
      if q.purchases.Some? then q.purchases else p.purchases)
  }

  /** Patching with `p` and then with the old values of the fields `p`
      supplied restores the listing; two patches in a row are their merge. */
  lemma ApplyPatchUndoAndMerge(x: Listing, p: ListingPatch, q: ListingPatch)
    ensures ApplyPatch(ApplyPatch(x, p), UndoPatch(x, p)) == x
    ensures ApplyPatch(ApplyPatch(x, p), q) == ApplyPatch(x, MergePatches(p, q))
  {
  }

  /** `updateListing`: look the listing up through `getListingById` (so the
      listings are synchronised first), overwrite the supplied fields and
      return the updated listing; `None` when no listing has `id`. */
  function UpdateListing(l: Ledger, src: MintSource, id: string, p: ListingPatch): (r: (Ledger, Option<Listing>))
    ensures r.0.purchases == l.purchases
    ensures r.1.None? <==> !HasId(Sync(l, src).listings, id)
    ensures r.1.None? ==> r.0 == Sync(l, src)
    ensures r.1.Some? ==>
              var s := Sync(l, src).listings;
              var k := FirstIndex(s, id).value;
              r.1.value == ApplyPatch(s[k], p) && r.0.listings == s[k := r.1.value]
  {
    var s := Sync(l, src);
    match FirstIndex(s.listings, id)
    case None => (s, None)
    case Some(k) =>
      var updated := ApplyPatch(s.listings[k], p);
      (Ledger(s.listings[k := updated], s.purchases), Some(updated))
  }

  /** Updating keeps identities unique unless the patch moves the listing
      onto an identity another listing already has. */
  lemma UpdateKeepsValid(l: Ledger, src: MintSource, id: string, p: ListingPatch)
    requires Valid(l)
    requires p.id.None? || p.id.value == id || !HasId(Sync(l, src).listings, p.id.value)
    ensures Valid(UpdateListing(l, src, id, p).0)
  {
    var s := Sync(l, src).listings;
    var r := UpdateListing(l, src, id, p).0.listings;
    if HasId(s, id) {
      var k := FirstIndex(s, id).value;
      forall i, j | 0 <= i < j < |r|
        ensures r[i].id != r[j].id
      {
        if i != k && j != k {
          assert r[i] == s[i] && r[j] == s[j];
        } else if p.id.Some? && p.id.value != id {
          assert !HasId(s, p.id.value);
          assert s[if i == k then j else i].id != p.id.value;
        }
      }
    }
  }

  /** An update that supplies another listing's identity leaves two
      listings with the same identity: `updateListing` does not guard it. */
  lemma UpdateCanDuplicateIds(a: Listing, b: Listing)
    requires a.id != b.id
    ensures var src := MintSource([], "", 0, "");
            var p := NoChanges.(id := Some(b.id));
            var l := Ledger([a, b], []);
            Valid(l) && !Valid(UpdateListing(l, src, a.id, p).0)
  {
    var src := MintSource([], "", 0, "");
    var l := Ledger([a, b], []);
    var p := NoChanges.(id := Some(b.id));
    assert Sync(l, src) == l;
    assert FirstIndex([a, b], a.id) == Some(0);
    var r := UpdateListing(l, src, a.id, p).0.listings;
    assert r == [ApplyPatch(a, p), b];
    assert r[0].id == r[1].id;
  }

  // ---------------------------------------------------------------------
  // Statistics
  // ---------------------------------------------------------------------

  datatype MarketStats = MarketStats(
    totalListings: nat,
    totalPurchases: nat,
    totalVolume: real,
    averagePrice: real)

  function Price(x: Listing): real
  {
    x.price
  }

  function Amount(p: Purchase): real
  {
    p.amount
  }

  /** `getMarketplaceStats` before its two-decimal rounding: the mean price
      times the number of listings is the total price, and the mean of no
      listings is zero rather than a division by zero. */
  function MarketplaceStats(l: Ledger): (r: MarketStats)
    ensures r.totalListings == |l.listings| && r.totalPurchases == |l.purchases|
    ensures r.totalVolume == SumReal(l.purchases, Amount)
    ensures |l.listings| == 0 ==> r.averagePrice == 0.0
    ensures |l.listings| > 0 ==> r.averagePrice * (|l.listings| as real) == SumReal(l.listings, Price)
  {
    var n := |l.listings|;
    var avg := if n > 0 then SumReal(l.listings, Price) / (n as real) else 0.0;
    MarketStats(n, |l.purchases|, SumReal(l.purchases, Amount), avg)
  }

  /** Three listings priced 5.5, 2.75 and 8.2 have a mean price of 16.45 / 3
      (5.48 after the rounding), and no listings a mean of zero. */
  lemma StatsExample(x: Listing, y: Listing, z: Listing)
    requires x.price == 5.5 && y.price == 2.75 && z.price == 8.2
    ensures MarketplaceStats(Ledger([x, y, z], [])).averagePrice * 3.0 == 16.45
    ensures MarketplaceStats(Ledger([], [])).averagePrice == 0.0
  {
    var ls := [x, y, z];
    assert [x][..0] == [] && [x, y][..1] == [x] && ls[..2] == [x, y];
    assert SumReal([x], Price) == 5.5;
    assert SumReal([x, y], Price) == 8.25;
  }

  /** Deleting a listing leaves the purchase statistics and every buyer's
      and seller's purchase history as they were. */
  lemma DeleteKeepsPurchaseHistory(l: Ledger, id: string, user: string)
    ensures var r := DeleteListing(l, id).0;
            && UserPurchases(r.purchases, user) == UserPurchases(l.purchases, user)
            && UserSales(r.purchases, user) == UserSales(l.purchases, user)
            && MarketplaceStats(r).totalPurchases == MarketplaceStats(l).totalPurchases
            && MarketplaceStats(r).totalVolume == MarketplaceStats(l).totalVolume
  {
  }
}

=== FILE: model.dfy ===
/** The records the marketplace ledger keeps (`DataListing`, `Purchase`) and
    the externally minted token records it absorbs, together with lookup by
    identity. Prices and amounts are HBAR values held as JavaScript numbers;
    they are modelled as reals. Optional fields (`fileUrl?`, `rating?`, ...)
    are `Option`s. */
module Model {
  import opened Collections

  datatype Listing = Listing(
    id: string,
    name: string,
    description: string,
    price: real,
    rows: int,
    categories: seq<string>,
    seller: string,
    timestamp: string,
    dataHash: string,
    fileUrl: Option<string>,
    preview: Option<seq<string>>,
    rating: Option<real>,
    purchases: Option<int>)

  datatype PurchaseStatus = Pending | Completed | Failed

  datatype Purchase = Purchase(
    id: string,
    buyerId: string,
    sellerId: string,
    dataId: string,
    amount: real,
    timestamp: string,
    transactionId: Option<string>,
    status: PurchaseStatus)

  /** The `metadata` object of a minted token record. Each field is `None`
      when absent; `summaryTotalRows` is `summary?.totalRows`. */
  datatype MintMetadata = MintMetadata(
    fileName: Option<string>,
    rowCount: Option<int>,
    summaryTotalRows: Option<int>,
    hash: Option<string>)

  /** One entry of the "minted-nfts" record written by the minting flow. */
  datatype MintedEntry = MintedEntry(
    tokenId: string,
    serialNumber: nat,
    metadata: Option<MintMetadata>,
    timestamp: Option<string>)

  /** The service's whole state: its two arrays. */
  datatype Ledger = Ledger(listings: seq<Listing>, purchases: seq<Purchase>)

  /** `listing.purchases || 0` */
  function PurchaseCount(l: Listing): int
  {
    l.purchases.GetOr(0)
  }

  /** `listing.rating || 0` */
  function RatingOrZero(l: Listing): real
  {
    l.rating.GetOr(0.0)
  }

  predicate HasId(ls: seq<Listing>, id: string)
  {
    exists k :: 0 <= k < |ls| && ls[k].id == id
  }

  /** Listing identities are unique within the active set. */
  predicate UniqueIds(ls: seq<Listing>)
  {
    forall i, j :: 0 <= i < j < |ls| ==> ls[i].id != ls[j].id
  }

  /** `findIndex((l) => l.id === id)`: the first position carrying `id`, or
      `None` (the source's `-1`) when no listing carries it. */
  function FirstIndex(ls: seq<Listing>, id: string): (r: Option<nat>)
    ensures r.None? <==> !HasId(ls, id)
    ensures r.Some? ==> r.value < |ls| && ls[r.value].id == id
    ensures r.Some? ==> forall j :: 0 <= j < r.value ==> ls[j].id != id
  {
    if ls == [] then None
    else if ls[0].id == id then Some(0)
    else
      var rest := FirstIndex(ls[1..], id);
      assert HasId(ls, id) ==> HasId(ls[1..], id) by {
        if HasId(ls, id) {
          var k :| 0 <= k < |ls| && ls[k].id == id;
          assert ls[1..][k - 1].id == id;
        }
      }
      if rest.None? then None
      else
        assert ls[rest.value + 1] == ls[1..][rest.value];
        Some(rest.value + 1)
  }

  /** `find((l) => l.id === id)`: the first listing carrying `id`. */
  function FindListing(ls: seq<Listing>, id: string): (r: Option<Listing>)
    ensures r.None? <==> !HasId(ls, id)
    ensures r.Some? ==> r.value in ls && r.value.id == id
    ensures r.Some? ==> exists k :: 0 <= k < |ls| && ls[k] == r.value && forall j :: 0 <= j < k ==> ls[j].id != id
  {
    match FirstIndex(ls, id)
    case None => None
    case Some(k) => Some(ls[k])
  }

  /** The first match is at `k` when `k` matches and nothing before it does. */
  lemma FirstIndexAt(ls: seq<Listing>, id: string, k: nat)
    requires k < |ls| && ls[k].id == id
    requires forall j :: 0 <= j < k ==> ls[j].id != id
    ensures FirstIndex(ls, id) == Some(k)
  {
    assert HasId(ls, id);
  }

  /** With unique identities the first match is the only one. */
  lemma FirstIndexUnique(ls: seq<Listing>, id: string, k: nat)
    requires UniqueIds(ls)
    requires k < |ls| && ls[k].id == id
    ensures FirstIndex(ls, id) == Some(k)
  {
    assert HasId(ls, id);
  }
}

=== FILE: my_purchases.dfy ===
/** The decisions of the buyer's purchases page: each of the buyer's
    purchases is joined with its listing through `getListingById`, purchases
    whose listing cannot be found are dropped, and the figures are taken
    over what remains. */
module MyPurchases {
  import opened Collections
  import opened Model
  import opened TokenSync
  import opened Marketplace

  /** One row of the page. */
  datatype UserPurchase = UserPurchase(
    purchaseId: string,
    listing: Listing,
    purchaseDate: string,
    amount: real,
    status: PurchaseStatus,
    transactionId: Option<string>)

  /** The page's rows and figures before the display rounding of the
      amount spent. */
  datatype PurchasesView = PurchasesView(
    purchases: seq<UserPurchase>,
    totalPurchases: nat,
    totalSpent: real,
    totalDataPoints: int)

  /** The row survives `filter((p) => p.listing && p.listing.id)`: a
      listing was found, and its identity (the purchase's `dataId`) is not
      the empty string. */
  predicate Resolves(ls: seq<Listing>, p: Purchase)
  {
    HasId(ls, p.dataId) && p.dataId != ""
  }

  predicate Dangling(ls: seq<Listing>, p: Purchase)
  {
    !Resolves(ls, p)
  }

  /** The row built for a purchase whose listing is found. */
  function Row(ls: seq<Listing>, p: Purchase): (u: UserPurchase)
    requires HasId(ls, p.dataId)
    ensures u.listing in ls && u.listing.id == p.dataId
    ensures Some(u.listing) == FindListing(ls, p.dataId)
    ensures exists k :: 0 <= k < |ls| && ls[k] == u.listing && forall j :: 0 <= j < k ==> ls[j].id != p.dataId
    ensures u.purchaseId == p.id && u.amount == p.amount && u.purchaseDate == p.timestamp
    ensures u.status == p.status && u.transactionId == p.transactionId
  {
    UserPurchase(p.id, FindListing(ls, p.dataId).value, p.timestamp, p.amount, p.status, p.transactionId)
  }

  /** The `map` followed by the `filter`. */
  function Join(ls: seq<Listing>, ps: seq<Purchase>): (r: seq<UserPurchase>)
    ensures var kept := Filter(ps, (p: Purchase) => Resolves(ls, p));
            |r| == |kept| && forall k :: 0 <= k < |r| ==> Resolves(ls, kept[k]) && r[k] == Row(ls, kept[k])
  {
    if ps == [] then []
    else
      var init := Join(ls, ps[..|ps| - 1]);
      var last := ps[|ps| - 1];
      if Resolves(ls, last) then init + [Row(ls, last)] else init
  }

  function RowAmount(u: UserPurchase): real
  {
    u.amount
  }

  /** `p.listing?.rows || 0`: a zero row count reads as zero anyway. */
  function RowRows(u: UserPurchase): int
  {
    u.listing.rows
  }

  /** The rows of the listing a resolving purchase refers to. */
  function ListedRows(ls: seq<Listing>, p: Purchase): int
  {
    match FindListing(ls, p.dataId)
    case Some(x) => x.rows
    case None => 0
  }

  /** The page's totals are the totals over the resolving purchases. */
  lemma JoinSums(ls: seq<Listing>, ps: seq<Purchase>)
    ensures var kept := Filter(ps, (p: Purchase) => Resolves(ls, p));
            && SumReal(Join(ls, ps), RowAmount) == SumReal(kept, Amount)
            && SumInt(Join(ls, ps), RowRows) == SumInt(kept, (p: Purchase) => ListedRows(ls, p))
  {
    JoinAmounts(ls, ps);
    JoinRows(ls, ps);
  }

  lemma {:induction false} JoinAmounts(ls: seq<Listing>, ps: seq<Purchase>)
    ensures SumReal(Join(ls, ps), RowAmount) == SumReal(Filter(ps, (p: Purchase) => Resolves(ls, p)), Amount)
  {
    if ps != [] {
      var init := ps[..|ps| - 1];
      var last := ps[|ps| - 1];
      JoinAmounts(ls, init);
      if Resolves(ls, last) {
        var j := Join(ls, init) + [Row(ls, last)];
        assert j[..|j| - 1] == Join(ls, init);
        var kept := Filter(init, (p: Purchase) => Resolves(ls, p)) + [last];
        assert kept[..|kept| - 1] == Filter(init, (p: Purchase) => Resolves(ls, p));
      }
    }
  }

  lemma {:induction false} JoinRows(ls: seq<Listing>, ps: seq<Purchase>)
    ensures SumInt(Join(ls, ps), RowRows)
            == SumInt(Filter(ps, (p: Purchase) => Resolves(ls, p)), (p: Purchase) => ListedRows(ls, p))
  {
    if ps != [] {
      var init := ps[..|ps| - 1];
      var last := ps[|ps| - 1];
      JoinRows(ls, init);
      if Resolves(ls, last) {
        var j := Join(ls, init) + [Row(ls, last)];
        assert j[..|j| - 1] == Join(ls, init);
        var kept := Filter(init, (p: Purchase) => Resolves(ls, p)) + [last];
        assert kept[..|kept| - 1] == Filter(init, (p: Purchase) => Resolves(ls, p));
      }
    }
  }

  /** The load step. `None` is the early return, which leaves the page as
      it was: no account or no connection. Reading the buyer's purchases
      does not synchronise; the first `getListingById` does, so the ledger
      changes only when the buyer has purchases. */
  function LoadPurchases(l: Ledger, src: MintSource, accountId: Option<string>, isConnected: bool)
    : (r: (Ledger, Option<PurchasesView>))
    ensures !TruthyStr(accountId) || !isConnected ==> r == (l, None)
    ensures TruthyStr(accountId) && isConnected ==>
              && r.1.Some?
              && r.0 == (if UserPurchases(l.purchases, accountId.value) == [] then l else Sync(l, src))
    ensures r.1.Some? ==>
              var v := r.1.value;
              var ls := Sync(l, src).listings;
              var kept := Filter(UserPurchases(l.purchases, accountId.value), (p: Purchase) => Resolves(ls, p));
              && v.totalPurchases == |v.purchases| == |kept|
              && (forall k :: 0 <= k < |kept| ==> Resolves(ls, kept[k]) && v.purchases[k] == Row(ls, kept[k]))
              && v.totalSpent == SumReal(kept, Amount)
              && v.totalDataPoints == SumInt(kept, (p: Purchase) => ListedRows(ls, p))
  {
    if !TruthyStr(accountId) || !isConnected then (l, None)
    else
      var mine := UserPurchases(l.purchases, accountId.value);
      var s := if mine == [] then l else Sync(l, src);
      // Every later `getListingById` synchronises an already synchronised ledger.
      SyncTwice(l, src, src);
      var rows := Join(Sync(l, src).listings, mine);
      JoinSums(Sync(l, src).listings, mine);
      (s, Some(PurchasesView(rows, |rows|, SumReal(rows, RowAmount), SumInt(rows, RowRows))))
  }

  /** What the page leaves out is exactly what the buyer spent on
      purchases whose listing is gone: the amount shown plus the amount of
      the dropped purchases is the buyer's whole spending. */
  lemma SpendingAccountsForDroppedRows(l: Ledger, src: MintSource, accountId: Option<string>)
    requires TruthyStr(accountId)
    ensures var v := LoadPurchases(l, src, accountId, true).1.value;
            var ls := Sync(l, src).listings;
            var mine := UserPurchases(l.purchases, accountId.value);
            v.totalSpent + SumReal(Filter(mine, (p: Purchase) => Dangling(ls, p)), Amount) == SumReal(mine, Amount)
  {
    var ls := Sync(l, src).listings;
    var mine := UserPurchases(l.purchases, accountId.value);
    var v := LoadPurchases(l, src, accountId, true).1.value;
    assert v.totalSpent == SumReal(Filter(mine, (p: Purchase) => Resolves(ls, p)), Amount);
    DroppedSum(ls, mine);
  }

  lemma DroppedSum(ls: seq<Listing>, ps: seq<Purchase>)
    ensures SumReal(Filter(ps, (p: Purchase) => Resolves(ls, p)), Amount)
            + SumReal(Filter(ps, (p: Purchase) => Dangling(ls, p)), Amount) == SumReal(ps, Amount)
  {
    SumRealPartition(ps, (p: Purchase) => Resolves(ls, p), (p: Purchase) => Dangling(ls, p), Amount);
  }

  /** Deleting a listing drops its purchases from the page while the
      ledger keeps them; a listing derived from a minted record, though,
      comes back with the next synchronisation. */
  lemma DeletedListingHidesPurchases(l: Ledger, src: MintSource, accountId: Option<string>, p: Purchase)
    requires Valid(l) && TruthyStr(accountId)
    requires p in l.purchases && p.buyerId == accountId.value
    requires forall e :: e in src.entries ==> e.metadata.None?
    ensures var l' := DeleteListing(l, p.dataId).0;
            && p in l'.purchases
            && forall u :: u in LoadPurchases(l', src, accountId, true).1.value.purchases ==> u.listing.id != p.dataId
  {
    var l' := DeleteListing(l, p.dataId).0;
    SyncSkipsBareRecords(l'.listings, src.entries, src) by {
      forall k | 0 <= k < |src.entries|
        ensures src.entries[k].metadata.None?
      {
        assert src.entries[k] in src.entries;
      }
    }
    assert !HasId(Sync(l', src).listings, p.dataId);
  }
}

=== FILE: purchase_route.dfy ===
/** `POST /api/purchase-data`: a fixed chain of rejection checks, an optional
    ledger transfer, then one unconditional `recordPurchase`. The transfer
    is an oracle: `receipt` is the transaction id once the SDK path has read
    it (app/api/purchase-data/route.ts:82), and `None` when a step before
    that throws. A failure of `client.close()` afterwards is caught with the
    id already set, so it is recorded all the same. */
module PurchaseRoute {
  import opened Collections
  import opened Model
  import opened TokenSync
  import opened Marketplace

  /** The JSON body; a field missing from it is `None`. */
  datatype PurchaseRequest = PurchaseRequest(
    listingId: Option<string>,
    buyerId: Option<string>,
    sellerId: Option<string>,
    amount: Option<real>,
    dataName: Option<string>)

  /** `request.json()` either parses or throws with some message. */
  datatype Body = Parsed(request: PurchaseRequest) | Unparsable(message: string)

  /** `HEDERA_ACCOUNT_ID` and `HEDERA_PRIVATE_KEY` from the server environment. */
  datatype Credentials = Credentials(accountId: Option<string>, privateKey: Option<string>)

  datatype Response =
    | Rejected(status: int, error: string)
    | Accepted(purchaseId: string, transactionId: Option<string>, purchase: Purchase)
  {
    function Status(): int
    {
      if Rejected? then status else 200
    }
  }

  const MissingFields: string := "Missing required fields"
  const InvalidAmount: string := "Invalid purchase amount"
  const ListingNotFound: string := "Listing not found"
  const PriceMismatch: string := "Price mismatch"
  const GenericFailure: string := "Failed to process purchase"

  /** `!amount` is false: present and not zero. */
  predicate TruthyAmount(a: Option<real>)
  {
    a.Some? && a.value != 0.0
  }

  /** The first check: every required field present and truthy. */
  predicate HasRequiredFields(q: PurchaseRequest)
  {
    TruthyStr(q.listingId) && TruthyStr(q.buyerId) && TruthyStr(q.sellerId) && TruthyAmount(q.amount)
  }

  /** The transfer is attempted only with both credentials set. */
  predicate CanTransfer(c: Credentials)
  {
    TruthyStr(c.accountId) && TruthyStr(c.privateKey)
  }

  /** A request every check lets through: required fields present, a
      positive amount, and the listing `getListingById` finds among the
      synchronised listings is priced at exactly that amount. */
  predicate Admissible(l: Ledger, src: MintSource, q: PurchaseRequest)
  {
    && HasRequiredFields(q)
    && q.amount.value > 0.0
    && var found := FindListing(Sync(l, src).listings, q.listingId.value);
       found.Some? && found.value.price == q.amount.value
  }

  /** With unique identities, admissibility just asks for some listing with
      the requested identity and price. */
  lemma AdmissibleWhenValid(l: Ledger, src: MintSource, q: PurchaseRequest)
    requires Valid(l) && HasRequiredFields(q)
    ensures Admissible(l, src, q) <==>
              q.amount.value > 0.0 &&
              exists x :: x in Sync(l, src).listings && x.id == q.listingId.value && x.price == q.amount.value
  {
    var s := Sync(l, src).listings;
    var id := q.listingId.value;
    if x :| x in s && x.id == id && x.price == q.amount.value {
      var k :| 0 <= k < |s| && s[k] == x;
      FirstIndexUnique(s, id, k);
    }
  }

  /** The route handler. `purchaseId` and `timestamp` are the identity and
      time `recordPurchase` generates. */
  function Handle(l: Ledger, src: MintSource, body: Body, creds: Credentials, receipt: Option<string>,
                  purchaseId: string, timestamp: string): (r: (Ledger, Response))
    // No rejection records a purchase; a rejection at most synchronises.
    ensures r.1.Rejected? ==> r.0.purchases == l.purchases
    ensures r.1.Rejected? ==> r.0 == l || r.0 == Sync(l, src)
    // The checks, in their order.
    ensures body.Unparsable? ==> r.1.Status() == 500 && r.0 == l
    ensures body.Parsed? && !HasRequiredFields(body.request) ==> r.1 == Rejected(400, MissingFields)
    ensures (body.Parsed? && HasRequiredFields(body.request) && body.request.amount.value < 0.0)
            ==> r.1 == Rejected(400, InvalidAmount)
    ensures (body.Parsed? && HasRequiredFields(body.request) && body.request.amount.value > 0.0 &&
             !HasId(Sync(l, src).listings, body.request.listingId.value))
            ==> r.1 == Rejected(404, ListingNotFound)
    ensures (body.Parsed? && HasRequiredFields(body.request) && body.request.amount.value > 0.0 &&
             HasId(Sync(l, src).listings, body.request.listingId.value) && !Admissible(l, src, body.request))
            ==> r.1 == Rejected(400, PriceMismatch)
    // Acceptance is exactly admissibility, and records exactly one purchase.
    ensures r.1.Accepted? <==> body.Parsed? && Admissible(l, src, body.request)
    ensures r.1.Accepted? ==>
              var q := body.request;
              && r.1.Status() == 200
              && r.0.purchases == l.purchases + [r.1.purchase]
              && r.1.purchase.status == Completed
              && r.1.purchaseId == purchaseId == r.1.purchase.id
              && r.1.purchase.buyerId == q.buyerId.value
              && r.1.purchase.sellerId == q.sellerId.value
              && r.1.purchase.dataId == q.listingId.value
              && r.1.purchase.amount == q.amount.value
              && r.0.listings == BumpCounter(Sync(l, src).listings, q.listingId.value)
    // The transaction id is known only once the transfer path has read it.
    ensures r.1.Accepted? ==>
              r.1.transactionId == r.1.purchase.transactionId == (if CanTransfer(creds) then receipt else None)
  {
    match body
    case Unparsable(msg) =>
      (l, Rejected(500, if msg != "" then msg else GenericFailure))
    case Parsed(q) =>
      if !HasRequiredFields(q) then
        (l, Rejected(400, MissingFields))
      else if q.amount.value <= 0.0 then
        (l, Rejected(400, InvalidAmount))
      else
        var (s, found) := GetListingById(l, src, q.listingId.value);
        if found.None? then
          (s, Rejected(404, ListingNotFound))
        else if found.value.price != q.amount.value then
          (s, Rejected(400, PriceMismatch))
        else
          var txId := if CanTransfer(creds) then receipt else None;
          var order := PurchaseOrder(q.buyerId.value, q.sellerId.value, q.listingId.value, q.amount.value, txId);
          var (s2, p) := RecordPurchase(s, src, order, purchaseId, timestamp);
          SyncTwice(l, src, src);
          (s2, Accepted(p.id, txId, p))
  }

  /** Whether the purchase is accepted does not depend on the transfer:
      success, failure and a skipped transfer all give the same outcome and
      the same number of recorded purchases. */
  lemma TransferDoesNotDecide(l: Ledger, src: MintSource, body: Body, creds: Credentials,
                              receipt: Option<string>, receipt': Option<string>, id: string, ts: string)
    ensures Handle(l, src, body, creds, receipt, id, ts).1.Status()
            == Handle(l, src, body, creds, receipt', id, ts).1.Status()
    ensures |Handle(l, src, body, creds, receipt, id, ts).0.purchases|
            == |Handle(l, src, body, creds, receipt', id, ts).0.purchases|
  {
  }

  /** On the server there is no browser storage: the service starts with
      no listings and its synchronisation reads nothing, so every request
      is turned away. */
  lemma ServerRejectsEveryPurchase(src: MintSource, body: Body, creds: Credentials, receipt: Option<string>,
                                   id: string, ts: string)
    requires src.entries == []
    ensures Handle(Ledger([], []), src, body, creds, receipt, id, ts).1.Rejected?
  {
    assert Sync(Ledger([], []), src).listings == [];
  }
}

=== FILE: seller_dashboard.dfy ===
/** The decisions of the seller dashboard page: the create-listing form
    handler (category parsing and required-field checks) and the load step
    that selects the connected seller's listings and sales. */
module SellerDashboard {
  import opened Collections
  import opened Text
  import opened Model
  import opened TokenSync
  import opened Marketplace

  // ---------------------------------------------------------------------
  // Category parsing: `split(',').map((c) => c.trim()).filter((c) => c)`
  // ---------------------------------------------------------------------

  /** `map((c) => c.trim())`: one trimmed piece per piece, in order. */
  function TrimAll(parts: seq<string>): (r: seq<string>)
    ensures |r| == |parts|
    ensures forall k :: 0 <= k < |parts| ==> r[k] == Trim(parts[k])
    ensures forall k :: 0 <= k < |r| ==> Trimmed(r[k])
  {
    MapSeq(parts, Trim)
  }

  predicate NonEmpty(s: string)
  {
    s != ""
  }

  /** A trimmed piece holds only characters of the piece it came from. */
  lemma TrimKeepsChars(s: string, c: char)
    ensures c in Trim(s) ==> c in s
  {
    var r := Trim(s);
    if c in r {
      var a :| Framed(s, r, a);
      InfixMember(s, a, a + |r|, c);
    }
  }

  lemma InfixMember(s: string, i: int, j: int, c: char)
    requires 0 <= i <= j <= |s|
    ensures c in s[i..j] ==> c in s
  {
    if c in s[i..j] {
      var k :| 0 <= k < j - i && s[i..j][k] == c;
      assert s[i + k] == c;
    }
  }

  /** Every category the form yields is non-empty, has no white space at
      either end and contains no comma; the categories are exactly the
      non-empty trimmed comma-separated pieces of the input. */
  function ParseCategories(input: string): (r: seq<string>)
    ensures forall c :: c in r ==> c != "" && Trimmed(c) && ',' !in c
    ensures forall c :: c in r <==> c != "" && c in TrimAll(Split(input, ','))
  {
    CategoriesWellFormed(input);
    Filter(TrimAll(Split(input, ',')), NonEmpty)
  }

  lemma CategoriesWellFormed(input: string)
    ensures forall c :: c in Filter(TrimAll(Split(input, ',')), NonEmpty) ==> c != "" && Trimmed(c) && ',' !in c
  {
    var pieces := Split(input, ',');
    var trimmed := TrimAll(pieces);
    forall c | c in Filter(trimmed, NonEmpty)
      ensures c != "" && Trimmed(c) && ',' !in c
    {
      var k :| 0 <= k < |trimmed| && trimmed[k] == c;
      TrimKeepsChars(pieces[k], ',');
    }
  }

  /** Comma-free pieces written out with commas are read back trimmed,
      with the blank ones dropped and the rest in their order. */
  lemma ParsePieces(parts: seq<string>)
    requires |parts| >= 1
    requires forall k :: 0 <= k < |parts| ==> ',' !in parts[k]
    ensures ParseCategories(Join(parts, ',')) == Filter(TrimAll(parts), NonEmpty)
  {
    SplitJoin(parts, ',');
  }

  /** Three categories typed with a comma and a space between them, as in
      "Weather, Climate, Europe", are read back as typed. */
  lemma ParseThree(a: string, b: string, c: string)
    requires a != "" && Trimmed(a) && ',' !in a
    requires b != "" && Trimmed(b) && ',' !in b
    requires c != "" && Trimmed(c) && ',' !in c
    ensures ParseCategories(a + ", " + b + ", " + c) == [a, b, c]
  {
    SplitSpaced(a, b, c);
    TrimSpaced(a, b, c);
    KeepNonEmptyTriple(a, b, c);
  }

  lemma KeepNonEmptyTriple(a: string, b: string, c: string)
    requires a != "" && b != "" && c != ""
    ensures Filter([a, b, c], NonEmpty) == [a, b, c]
  {
    var s := [a, b, c];
    forall k | 0 <= k < |s|
      ensures NonEmpty(s[k])
    {
    }
    FilterAll(s, NonEmpty);
  }

  lemma SplitSpaced(a: string, b: string, c: string)
    requires ',' !in a && ',' !in b && ',' !in c
    ensures Split(a + ", " + b + ", " + c, ',') == [a, " " + b, " " + c]
  {
    JoinSpaced(a, b, c);
    SpacedCommaFree(b);
    SpacedCommaFree(c);
    SplitThree(a, " " + b, " " + c);
  }

  /** Three comma-free pieces joined by commas split back into the three. */
  lemma SplitThree(x: string, y: string, z: string)
    requires ',' !in x && ',' !in y && ',' !in z
    ensures Split(Join([x, y, z], ','), ',') == [x, y, z]
  {
    var parts := [x, y, z];
    forall k | 0 <= k < |parts|
      ensures ',' !in parts[k]
    {
    }
    SplitJoin(parts, ',');
  }

  lemma JoinSpaced(a: string, b: string, c: string)
    ensures Join([a, " " + b, " " + c], ',') == a + ", " + b + ", " + c
  {
    var parts := [a, " " + b, " " + c];
    assert Join(parts[2..], ',') == " " + c;
    assert Join(parts[1..], ',') == " " + b + [','] + (" " + c);
  }

  lemma SpacedCommaFree(x: string)
    requires ',' !in x
    ensures ',' !in " " + x
  {
    assert forall i :: 1 <= i < |" " + x| ==> (" " + x)[i] == x[i - 1];
  }

  lemma TrimSpaced(a: string, b: string, c: string)
    requires Trimmed(a) && Trimmed(b) && Trimmed(c)
    ensures TrimAll([a, " " + b, " " + c]) == [a, b, c]
  {
    MapTriple(a, " " + b, " " + c, Trim);
    TrimOfTrimmed(a);
    TrimLeadingSpace(b);
    TrimLeadingSpace(c);
  }

  lemma TrimLeadingSpace(x: string)
    requires Trimmed(x)
    ensures Trim(" " + x) == x
  {
    assert " " + x == " " + x + "";
    TrimOfFramed(" ", x, "");
  }

  /** The form's usual input. */
  lemma ParseTypicalInput()
    ensures ParseCategories("Weather, Climate, Europe") == ["Weather", "Climate", "Europe"]
  {
    assert "Weather" + ", " + "Climate" + ", " + "Europe" == "Weather, Climate, Europe";
    ParseThree("Weather", "Climate", "Europe");
  }

  /** Categories written out with commas are read back exactly, in order. */
  lemma ParseJoinedCategories(cs: seq<string>)
    requires forall k :: 0 <= k < |cs| ==> cs[k] != "" && Trimmed(cs[k]) && ',' !in cs[k]
    ensures ParseCategories(Join(cs, ',')) == cs
  {
    if cs == [] {
      ParseEmptyInput();
    } else {
      assert Split(Join(cs, ','), ',') == cs by {
        SplitJoin(cs, ',');
      }
      assert TrimAll(cs) == cs by {
        TrimAllTrimmed(cs);
      }
      assert Filter(cs, NonEmpty) == cs by {
        FilterAll(cs, NonEmpty);
      }
    }
  }

  /** An empty input yields no category. */
  lemma ParseEmptyInput()
    ensures ParseCategories("") == []
  {
    assert Split("", ',') == [""];
    assert Trim("") == "" by {
      TrimOfFramed([], [], []);
    }
    assert TrimAll([""]) == [""];
    assert Filter([""], NonEmpty) == [];
  }

  lemma TrimAllTrimmed(cs: seq<string>)
    requires forall k :: 0 <= k < |cs| ==> Trimmed(cs[k])
    ensures TrimAll(cs) == cs
  {
    forall k | 0 <= k < |cs|
      ensures Trim(cs[k]) == cs[k]
    {
      assert [] + cs[k] + [] == cs[k];
      TrimOfFramed([], cs[k], []);
    }
  }

  /** Two comma-free pieces joined by one comma split back into the two. */
  lemma SplitPair(x: string, y: string)
    requires ',' !in x && ',' !in y
    ensures Split(x + [','] + y, ',') == [x, y]
  {
    assert Join([x, y], ',') == x + [','] + y by {
      assert Join([y], ',') == y;
    }
    SplitJoin([x, y], ',');
  }

  /** White space around each category does not matter. */
  lemma ParseSpacedCategories(w1: string, a: string, w2: string, w3: string, b: string, w4: string)
    requires AllSpace(w1) && AllSpace(w2) && AllSpace(w3) && AllSpace(w4)
    requires a != "" && Trimmed(a) && ',' !in a
    requires b != "" && Trimmed(b) && ',' !in b
    ensures ParseCategories((w1 + a + w2) + "," + (w3 + b + w4)) == [a, b]
  {
    SplitPadded(w1, a, w2, w3, b, w4);
    TrimPadded(w1, a, w2, w3, b, w4);
    KeepNonEmptyPair(a, b);
  }

  lemma SplitPadded(w1: string, a: string, w2: string, w3: string, b: string, w4: string)
    requires AllSpace(w1) && AllSpace(w2) && AllSpace(w3) && AllSpace(w4)
    requires ',' !in a && ',' !in b
    ensures Split((w1 + a + w2) + "," + (w3 + b + w4), ',') == [w1 + a + w2, w3 + b + w4]
  {
    NoCommaInPadded(w1, a, w2);
    NoCommaInPadded(w3, b, w4);
    SplitPair(w1 + a + w2, w3 + b + w4);
  }

  lemma TrimPadded(w1: string, a: string, w2: string, w3: string, b: string, w4: string)
    requires AllSpace(w1) && AllSpace(w2) && AllSpace(w3) && AllSpace(w4)
    requires Trimmed(a) && Trimmed(b)
    ensures TrimAll([w1 + a + w2, w3 + b + w4]) == [a, b]
  {
    MapPair(w1 + a + w2, w3 + b + w4, Trim);
    TrimOfFramed(w1, a, w2);
    TrimOfFramed(w3, b, w4);
  }

  lemma KeepNonEmptyPair(a: string, b: string)
    requires a != "" && b != ""
    ensures Filter([a, b], NonEmpty) == [a, b]
  {
    FilterAll([a, b], NonEmpty);
  }

  lemma NoCommaInPadded(w1: string, x: string, w2: string)
    requires AllSpace(w1) && AllSpace(w2) && ',' !in x
    ensures ',' !in w1 + x + w2
  {
    var s := w1 + x + w2;
    forall i | 0 <= i < |s|
      ensures s[i] != ','
    {
      if i < |w1| {
        assert IsSpace(w1[i]);
      } else if i < |w1| + |x| {
        assert s[i] == x[i - |w1|];
      } else {
        assert IsSpace(w2[i - |w1| - |x|]);
      }
    }
  }

  /** An input of only commas and white space yields no category. */
  lemma ParseBlankCategories()
    ensures ParseCategories(" , ") == []
  {
    assert " , " == " " + [','] + " ";
    SplitPair(" ", " ");
    assert " " == " " + [] + [];
    TrimOfFramed(" ", [], []);
    assert TrimAll([" ", " "]) == ["", ""];
  }

  // ---------------------------------------------------------------------
  // `handleCreateListing`
  // ---------------------------------------------------------------------

  /** The form's raw text fields. */
  datatype ListingForm = ListingForm(
    name: string,
    description: string,
    price: string,
    rows: string,
    categories: string)

  datatype CreateOutcome =
    | WalletNotConnected
    | MissingRequiredFields
    | NoCategory
    | Created(listing: Listing)

  predicate FieldsFilled(f: ListingForm)
  {
    f.name != "" && f.description != "" && f.price != "" && f.rows != ""
  }

  /** The handler. `parsedPrice` and `parsedRows` are what `parseFloat` and
      `parseInt` make of the price and rows text; `id`, `timestamp` and
      `dataHash` are the generated values. */
  function HandleCreateListing(l: Ledger, accountId: Option<string>, f: ListingForm,
                               parsedPrice: real, parsedRows: int,
                               id: string, timestamp: string, dataHash: string): (r: (Ledger, CreateOutcome))
    requires !HasId(l.listings, id)
    ensures r.1.Created? <==>
              TruthyStr(accountId) && FieldsFilled(f) && ParseCategories(f.categories) != []
    ensures !r.1.Created? ==> r.0 == l
    ensures !TruthyStr(accountId) ==> r.1 == WalletNotConnected
    ensures (TruthyStr(accountId) && !FieldsFilled(f)) ==> r.1 == MissingRequiredFields
    ensures (TruthyStr(accountId) && FieldsFilled(f) && ParseCategories(f.categories) == []) ==> r.1 == NoCategory
    ensures r.1.Created? ==>
              && r.0.listings == l.listings + [r.1.listing]
              && r.0.purchases == l.purchases
              && r.1.listing.seller == accountId.value
              && r.1.listing.name == f.name && r.1.listing.description == f.description
              && r.1.listing.price == parsedPrice && r.1.listing.rows == parsedRows
              && r.1.listing.categories == ParseCategories(f.categories)
              && |r.1.listing.categories| > 0
              && r.1.listing.id == id && PurchaseCount(r.1.listing) == 0
  {
    if !TruthyStr(accountId) then (l, WalletNotConnected)
    else
      var categories := ParseCategories(f.categories);
      if !FieldsFilled(f) then (l, MissingRequiredFields)
      else if |categories| == 0 then (l, NoCategory)
      else
        var draft := ListingDraft(f.name, f.description, parsedPrice, parsedRows, categories,
                                  accountId.value, dataHash, None);
        var (l', listing) := CreateListing(l, draft, id, timestamp);
        (l', Created(listing))
  }

  // ---------------------------------------------------------------------
  // `loadListings`
  // ---------------------------------------------------------------------

  /** What the dashboard shows: the seller's listings and the statistics
      before their display rounding. */
  datatype DashboardView = DashboardView(
    listings: seq<Listing>,
    totalListings: nat,
    totalSales: nat,
    totalRevenue: real,
    avgRating: real)

  predicate SoldBy(x: Listing, seller: string)
  {
    x.seller == seller
  }

  /** `allListings.filter((l) => l.seller === accountId)` */
  function SellerListings(ls: seq<Listing>, seller: string): (r: seq<Listing>)
    ensures |r| <= |ls|
    ensures forall x :: x in r <==> x in ls && x.seller == seller
    ensures forall x :: multiset(r)[x] == if x.seller == seller then multiset(ls)[x] else 0
  {
    Filter(ls, x => SoldBy(x, seller))
  }

  /** The seller's listings keep their relative order: over a concatenation
      they are the listings of each part, one after the other. */
  lemma SellerListingsPreserveOrder(a: seq<Listing>, b: seq<Listing>, seller: string)
    ensures SellerListings(a + b, seller) == SellerListings(a, seller) + SellerListings(b, seller)
  {
    FilterAppend(a, b, x => SoldBy(x, seller));
  }

  /** The mean rating of the seller's listings (absent ratings count as
      zero), and zero when there are none. */
  function MeanRating(ls: seq<Listing>): (avg: real)
    ensures ls == [] ==> avg == 0.0
    ensures ls != [] ==> avg * (|ls| as real) == SumReal(ls, RatingOrZero)
  {
    if |ls| > 0 then SumReal(ls, RatingOrZero) / (|ls| as real) else 0.0
  }

  /** Loading reads the listings through `getAllListings`, so it
      synchronises first; without a connected account nothing happens. */
  function LoadDashboard(l: Ledger, src: MintSource, accountId: Option<string>, isConnected: bool)
    : (r: (Ledger, Option<DashboardView>))
    ensures !TruthyStr(accountId) || !isConnected ==> r == (l, None)
    ensures TruthyStr(accountId) && isConnected ==> r.0 == Sync(l, src) && r.1.Some?
    ensures r.1.Some? ==>
              var v := r.1.value;
              var acc := accountId.value;
              && (forall x :: x in v.listings <==> x in r.0.listings && x.seller == acc)
              && v.listings == SellerListings(r.0.listings, acc)
              && v.totalListings == |SellerListings(r.0.listings, acc)|
              && v.totalSales == |UserSales(l.purchases, acc)|
              && v.totalRevenue == SumReal(UserSales(l.purchases, acc), Amount)
              && v.avgRating == MeanRating(v.listings)
  {
    if !TruthyStr(accountId) || !isConnected then (l, None)
    else
      var acc := accountId.value;
      var s := Sync(l, src);
      var mine := SellerListings(s.listings, acc);
      var sales := UserSales(s.purchases, acc);
      (s, Some(DashboardView(mine, |mine|, |sales|, SumReal(sales, Amount), MeanRating(mine))))
  }

  /** A listing created from the dashboard shows up on that seller's
      dashboard. */
  lemma CreatedListingIsShown(l: Ledger, src: MintSource, accountId: Option<string>, f: ListingForm,
                              parsedPrice: real, parsedRows: int, id: string, timestamp: string, dataHash: string)
    requires !HasId(l.listings, id)
    requires HandleCreateListing(l, accountId, f, parsedPrice, parsedRows, id, timestamp, dataHash).1.Created?
    ensures var (l', out) := HandleCreateListing(l, accountId, f, parsedPrice, parsedRows, id, timestamp, dataHash);
            out.listing in LoadDashboard(l', src, accountId, true).1.value.listings
  {
    var (l', out) := HandleCreateListing(l, accountId, f, parsedPrice, parsedRows, id, timestamp, dataHash);
    var s := Sync(l', src).listings;
    assert s[|l.listings|] == l'.listings[|l.listings|] == out.listing;
  }
}

=== FILE: string_order.dfy ===
/** The default order of `Array.prototype.sort` on strings (lexicographic,
    character by character, a proper prefix first), and the sorted,
    duplicate-free sequence of a collection's members that
    `Array.from(new Set(xs)).sort()` produces. */
module StringOrder {

  /** `a` sorts strictly before `b`. */
  predicate Less(a: string, b: string)
    decreases |a|
  {
    if a == [] then b != []
    else b != [] && (if a[0] == b[0] then Less(a[1..], b[1..]) else a[0] < b[0])
  }

  lemma {:induction false} LessIrreflexive(a: string)
    ensures !Less(a, a)
    decreases |a|
  {
    if a != [] {
      LessIrreflexive(a[1..]);
    }
  }

  lemma {:induction false} LessTransitive(a: string, b: string, c: string)
    requires Less(a, b) && Less(b, c)
    ensures Less(a, c)
    decreases |a|
  {
    if a != [] && a[0] == b[0] && b[0] == c[0] {
      LessTransitive(a[1..], b[1..], c[1..]);
    }
  }

  lemma {:induction false} LessTotal(a: string, b: string)
    requires a != b
    ensures Less(a, b) || Less(b, a)
    decreases |a|
  {
    if a != [] && b != [] && a[0] == b[0] {
      assert a == [a[0]] + a[1..] && b == [b[0]] + b[1..];
      LessTotal(a[1..], b[1..]);
    }
  }

  lemma LessAsymmetric(a: string, b: string)
    requires Less(a, b)
    ensures !Less(b, a)
  {
    if Less(b, a) {
      LessTransitive(a, b, a);
      LessIrreflexive(a);
    }
  }

  /** Ascending without repetition. */
  predicate StrictlySorted(xs: seq<string>)
  {
    forall i, j :: 0 <= i < j < |xs| ==> Less(xs[i], xs[j])
  }

  lemma SortedDistinctElements(xs: seq<string>, i: int, j: int)
    requires StrictlySorted(xs)
    requires 0 <= i < j < |xs|
    ensures xs[i] != xs[j]
  {
    LessIrreflexive(xs[i]);
  }

  lemma PrependSorted(x: string, xs: seq<string>)
    requires StrictlySorted(xs)
    requires forall y :: y in xs ==> Less(x, y)
    ensures StrictlySorted([x] + xs)
  {
    var r := [x] + xs;
    forall i, j | 0 <= i < j < |r|
      ensures Less(r[i], r[j])
    {
      if i > 0 {
        assert r[i] == xs[i - 1] && r[j] == xs[j - 1];
      } else {
        assert r[j] in xs;
      }
    }
  }

  /** Put `x` in its place in a sorted sequence, unless it is already there. */
  function Insert(xs: seq<string>, x: string): (r: seq<string>)
    requires StrictlySorted(xs)
    ensures StrictlySorted(r)
    ensures forall y :: y in r <==> y == x || y in xs
    decreases |xs|
  {
    if xs == [] then [x]
    else if x == xs[0] then xs
    else if Less(x, xs[0]) then
      assert forall y :: y in xs ==> Less(x, y) by {
        forall y | y in xs
          ensures Less(x, y)
        {
          var j :| 0 <= j < |xs| && xs[j] == y;
          if j > 0 {
            LessTransitive(x, xs[0], y);
          }
        }
      }
      PrependSorted(x, xs);
      [x] + xs
    else
      LessTotal(x, xs[0]);
      assert xs == [xs[0]] + xs[1..];
      var rest := Insert(xs[1..], x);
      assert forall y :: y in rest ==> Less(xs[0], y);
      PrependSorted(xs[0], rest);
      [xs[0]] + rest
  }

  /** The members of `xs`, sorted, each once. */
  function SortedMembers(xs: seq<string>): (r: seq<string>)
    ensures StrictlySorted(r)
    ensures forall y :: y in r <==> y in xs
  {
    if xs == [] then []
    else
      assert xs == xs[..|xs| - 1] + [xs[|xs| - 1]];
      Insert(SortedMembers(xs[..|xs| - 1]), xs[|xs| - 1])
  }

  /** A strictly sorted sequence is determined by its members: whatever
      order the input came in, the sorted result is the same. */
  lemma {:induction false} SortedUnique(a: seq<string>, b: seq<string>)
    requires StrictlySorted(a) && StrictlySorted(b)
    requires forall y :: y in a <==> y in b
    ensures a == b
    decreases |a|
  {
    assert a != [] ==> a[0] in b;
    assert b != [] ==> b[0] in a;
    if a != [] {
      var j :| 0 <= j < |b| && b[j] == a[0];
      var i :| 0 <= i < |a| && a[i] == b[0];
      if i > 0 && j > 0 {
        LessAsymmetric(a[0], a[i]);
      }
      assert a[0] == b[0];
      forall y
        ensures y in a[1..] <==> y in b[1..]
      {
        if y in a[1..] {
          var m :| 1 <= m < |a| && a[m] == y;
          LessIrreflexive(y);
          assert y != a[0];
          assert y in b;
        }
        if y in b[1..] {
          var m :| 1 <= m < |b| && b[m] == y;
          LessIrreflexive(y);
          assert y != b[0];
          assert y in a;
        }
      }
      SortedUnique(a[1..], b[1..]);
      assert a == [a[0]] + a[1..] && b == [b[0]] + b[1..];
    }
  }

  /** Sorting the members of a collection ignores the order and the
      repetitions of its elements. */
  lemma SortedMembersIgnoresOrder(xs: seq<string>, ys: seq<string>)
    requires forall y :: y in xs <==> y in ys
    ensures SortedMembers(xs) == SortedMembers(ys)
  {
    SortedUnique(SortedMembers(xs), SortedMembers(ys));
  }
}

=== FILE: text.dfy ===
/** String helpers with the semantics of the JavaScript built-ins the
    marketplace relies on: `toLowerCase`, `includes`, `trim`, `split(',')`,
    the `/\.csv$/i` replacement and number-to-string rendering. */
module Text {

  // ---------------------------------------------------------------------
  // Lower-casing (ASCII letters only; see README "Left out")
  // ---------------------------------------------------------------------

  function LowerChar(c: char): char
  {
    if 'A' <= c <= 'Z' then (c as int + 32) as char else c
  }

  /** `toLowerCase` on ASCII letters: every capital becomes its small
      letter, every other character is kept. */
  function Lower(s: string): (r: string)
    ensures |r| == |s|
    ensures forall i :: 0 <= i < |s| ==> r[i] == LowerChar(s[i])
    ensures forall i :: 0 <= i < |s| ==> !('A' <= r[i] <= 'Z')
    ensures forall i :: 0 <= i < |s| && 'A' <= s[i] <= 'Z' ==> r[i] as int - s[i] as int == 'a' as int - 'A' as int
    ensures forall i :: 0 <= i < |s| && !('A' <= s[i] <= 'Z') ==> r[i] == s[i]
  {
    seq(|s|, i requires 0 <= i < |s| => LowerChar(s[i]))
  }

  /** Lower-casing is idempotent. */
  lemma LowerIdempotent(s: string)
    ensures Lower(Lower(s)) == Lower(s)
  {
    assert forall i :: 0 <= i < |s| ==> LowerChar(LowerChar(s[i])) == LowerChar(s[i]);
  }

  // ---------------------------------------------------------------------
  // Substring search (`String.prototype.includes`)
  // ---------------------------------------------------------------------

  predicate OccursAt(s: string, sub: string, i: int)
  {
    0 <= i <= |s| - |sub| && s[i..i + |sub|] == sub
  }

  /** `s.includes(sub)`: some window of `s` equals `sub`. */
  function Contains(s: string, sub: string): (r: bool)
    ensures r <==> exists i :: OccursAt(s, sub, i)
    decreases |s|
  {
    if |sub| <= |s| && s[..|sub|] == sub then
      assert OccursAt(s, sub, 0);
      true
    else if |s| == 0 then
      false
    else
      var rest := Contains(s[1..], sub);
      assert forall i :: OccursAt(s[1..], sub, i) ==> OccursAt(s, sub, i + 1) by {
        forall i | OccursAt(s[1..], sub, i)
          ensures OccursAt(s, sub, i + 1)
        {
          assert s[1..][i..i + |sub|] == s[i + 1..i + 1 + |sub|];
        }
      }
      assert forall i :: OccursAt(s, sub, i) ==> i >= 1 && OccursAt(s[1..], sub, i - 1) by {
        forall i | OccursAt(s, sub, i)
          ensures i >= 1 && OccursAt(s[1..], sub, i - 1)
        {
          assert s[1..][i - 1..i - 1 + |sub|] == s[i..i + |sub|];
        }
      }
      rest
  }

  /** The empty query is contained in every string. */
  lemma ContainsEmpty(s: string)
    ensures Contains(s, "")
  {
    assert OccursAt(s, "", 0);
  }

  // ---------------------------------------------------------------------
  // Trimming (`String.prototype.trim`)
  // ---------------------------------------------------------------------

  /** ECMAScript WhiteSpace and LineTerminator code points. */
  const WhiteSpace: set<char> := {
    '\t', '\n', '\U{000B}', '\U{000C}', '\r', ' ', '\U{00A0}', '\U{1680}',
    '\U{2000}', '\U{2001}', '\U{2002}', '\U{2003}', '\U{2004}', '\U{2005}',
    '\U{2006}', '\U{2007}', '\U{2008}', '\U{2009}', '\U{200A}',
    '\U{2028}', '\U{2029}', '\U{202F}', '\U{205F}', '\U{3000}', '\U{FEFF}'
  }

  predicate IsSpace(c: char)
  {
    c in WhiteSpace
  }

  predicate AllSpace(s: string)
  {
    forall i :: 0 <= i < |s| ==> IsSpace(s[i])
  }

  /** Neither end of `s` is white space. */
  predicate Trimmed(s: string)
  {
    |s| == 0 || (!IsSpace(s[0]) && !IsSpace(s[|s| - 1]))
  }

  function TrimStart(s: string): (r: string)
    ensures |r| <= |s| && r == s[|s| - |r|..]
    ensures AllSpace(s[..|s| - |r|])
    ensures r == [] || !IsSpace(r[0])
  {
    if s != [] && IsSpace(s[0]) then
      var r := TrimStart(s[1..]);
      assert s[..|s| - |r|] == [s[0]] + s[1..][..|s[1..]| - |r|];
      r
    else
      s
  }

  function TrimEnd(s: string): (r: string)
    ensures |r| <= |s| && r == s[..|r|]
    ensures AllSpace(s[|r|..])
    ensures r == [] || !IsSpace(r[|r| - 1])
  {
    if s != [] && IsSpace(s[|s| - 1]) then
      var r := TrimEnd(s[..|s| - 1]);
      assert s[|r|..] == s[..|s| - 1][|r|..] + [s[|s| - 1]];
      r
    else
      s
  }

  /** `r` sits at offset `a` of `s` with only white space around it. */
  predicate Framed(s: string, r: string, a: int)
  {
    && 0 <= a <= |s| - |r|
    && s[a..a + |r|] == r
    && AllSpace(s[..a])
    && AllSpace(s[a + |r|..])
  }

  /** `s.trim()`: `s` is the result framed by white space on both sides,
      and the result itself has no white space at either end. */
  function Trim(s: string): (r: string)
    ensures Trimmed(r)
    ensures exists a :: Framed(s, r, a)
  {
    var t := TrimStart(s);
    var r := TrimEnd(t);
    var a := |s| - |t|;
    assert s[a..a + |r|] == r;
    assert s[a + |r|..] == t[|r|..];
    assert Framed(s, r, a);
    r
  }

  lemma {:induction false} TrimStartOfSpaced(w: string, x: string)
    requires AllSpace(w) && (x == [] || !IsSpace(x[0]))
    ensures TrimStart(w + x) == x
    decreases |w|
  {
    if w == [] {
      assert w + x == x;
    } else {
      var s := w + x;
      assert s[0] == w[0];
      assert s[1..] == w[1..] + x;
      TrimStartOfSpaced(w[1..], x);
    }
  }

  lemma {:induction false} TrimEndOfSpaced(x: string, w: string)
    requires AllSpace(w) && (x == [] || !IsSpace(x[|x| - 1]))
    ensures TrimEnd(x + w) == x
    decreases |w|
  {
    if w == [] {
      assert x + w == x;
    } else {
      var s := x + w;
      assert s[|s| - 1] == w[|w| - 1];
      assert s[..|s| - 1] == x + w[..|w| - 1];
      TrimEndOfSpaced(x, w[..|w| - 1]);
    }
  }

  /** Trimming removes exactly the white-space frame around a trimmed core. */
  lemma TrimOfFramed(w1: string, x: string, w2: string)
    requires AllSpace(w1) && AllSpace(w2) && Trimmed(x)
    ensures Trim(w1 + x + w2) == x
  {
    if x == [] {
      assert w1 + x + w2 == w1 + w2;
      assert AllSpace(w1 + w2);
      TrimStartOfSpaced(w1 + w2, []);
      assert w1 + w2 + [] == w1 + w2;
    } else {
      assert w1 + x + w2 == w1 + (x + w2);
      TrimStartOfSpaced(w1, x + w2);
      TrimEndOfSpaced(x, w2);
    }
  }

  /** A string with no white space at either end is its own trimming. */
  lemma TrimOfTrimmed(x: string)
    requires Trimmed(x)
    ensures Trim(x) == x
  {
    assert TrimStart(x) == x;
    assert TrimEnd(x) == x;
  }

  lemma TrimIdempotent(s: string)
    ensures Trim(Trim(s)) == Trim(s)
  {
    TrimOfTrimmed(Trim(s));
  }

  // ---------------------------------------------------------------------
  // Splitting on a separator (`split(sep)`) and its inverse `join(sep)`
  // ---------------------------------------------------------------------

  function Join(parts: seq<string>, sep: char): string
  {
    if |parts| == 0 then ""
    else if |parts| == 1 then parts[0]
    else parts[0] + [sep] + Join(parts[1..], sep)
  }

  /** `s.split(sep)` with a one-character separator: never empty, pieces
      contain no separator, and joining them back gives `s`. */
  function Split(s: string, sep: char): (r: seq<string>)
    ensures |r| >= 1
    ensures forall k :: 0 <= k < |r| ==> sep !in r[k]
    ensures Join(r, sep) == s
  {
    if s == [] then [""]
    else
      var rest := Split(s[1..], sep);
      if s[0] == sep then
        [""] + rest
      else
        var r := [[s[0]] + rest[0]] + rest[1..];
        assert r[1..] == rest[1..];
        assert s == [s[0]] + s[1..];
        r
  }

  /** Splitting the joined pieces gives the pieces back. */
  lemma {:induction false} SplitJoin(parts: seq<string>, sep: char)
    requires |parts| >= 1
    requires forall k :: 0 <= k < |parts| ==> sep !in parts[k]
    ensures Split(Join(parts, sep), sep) == parts
    decreases |parts|, |parts[0]|
  {
    if |parts| == 1 {
      SplitNoSep(parts[0], sep);
    } else if parts[0] == [] {
      var tail := parts[1..];
      assert Join(parts, sep) == [sep] + Join(tail, sep);
      assert ([sep] + Join(tail, sep))[1..] == Join(tail, sep);
      SplitJoin(tail, sep);
      assert parts == [""] + tail;
    } else {
      var p0 := parts[0];
      var shorter := [p0[1..]] + parts[1..];
      assert shorter[1..] == parts[1..];
      assert Join(shorter, sep) == p0[1..] + [sep] + Join(parts[1..], sep);
      assert Join(parts, sep) == [p0[0]] + Join(shorter, sep);
      assert p0[0] in p0;
      SplitJoin(shorter, sep);
      assert ([p0[0]] + Join(shorter, sep))[1..] == Join(shorter, sep);
      assert [p0[0]] + p0[1..] == p0;
    }
  }

  lemma {:induction false} SplitNoSep(s: string, sep: char)
    requires sep !in s
    ensures Split(s, sep) == [s]
    decreases |s|
  {
    if s != [] {
      assert s[0] in s;
      assert forall c :: c in s[1..] ==> c in s;
      SplitNoSep(s[1..], sep);
      assert [s[0]] + s[1..] == s;
    }
  }

  // ---------------------------------------------------------------------
  // `fileName.replace(/\.csv$/i, '')`
  // ---------------------------------------------------------------------

  /** The last four characters are ".csv" in any letter case. Non-unicode
      `/i` matching never folds a non-ASCII character onto an ASCII one,
      so ASCII case folding is exact here. */
  predicate EndsWithCsv(s: string)
  {
    |s| >= 4 && Lower(s[|s| - 4..]) == ".csv"
  }

  /** The result is `s` with at most its last four characters cut, and
      they are cut exactly when they spell ".csv". */
  function StripCsvSuffix(s: string): (r: string)
    ensures |r| <= |s| && r == s[..|r|]
    ensures |r| == |s| - 4 <==> EndsWithCsv(s)
    ensures !EndsWithCsv(s) ==> r == s
  {
    if EndsWithCsv(s) then s[..|s| - 4] else s
  }

  /** A base name with any-case ".csv" appended gets exactly that suffix
      removed, and only once. */
  lemma StripCsvOfCsvName(base: string, ext: string)
    requires |ext| == 4 && Lower(ext) == ".csv"
    ensures StripCsvSuffix(base + ext) == base
  {
    assert (base + ext)[|base + ext| - 4..] == ext;
    assert (base + ext)[..|base + ext| - 4] == base;
  }

  /** A name without such an ending is left as it is. */
  lemma StripCsvOfOtherName(s: string)
    requires !EndsWithCsv(s)
    ensures StripCsvSuffix(s) == s
  {
  }

  /** A name ending in a digit, such as the generated `dataset_<millis>`,
      is left as it is. */
  lemma StripCsvOfDigitEnding(s: string)
    requires |s| > 0 && IsDigit(s[|s| - 1])
    ensures StripCsvSuffix(s) == s
  {
    if |s| >= 4 {
      assert Lower(s[|s| - 4..])[3] == LowerChar(s[|s| - 1]) == s[|s| - 1];
    }
  }

  /** "a.csv.csv" loses one suffix, not two. */
  lemma StripCsvOnce()
    ensures StripCsvSuffix("a.CSV.csv") == "a.CSV"
  {
    StripCsvOfCsvName("a.CSV", ".csv");
    assert "a.CSV" + ".csv" == "a.CSV.csv";
  }

  // ---------------------------------------------------------------------
  // Rendering integers as decimal text (template literals)
  // ---------------------------------------------------------------------

  predicate IsDigit(c: char)
  {
    '0' <= c <= '9'
  }

  predicate AllDigits(s: string)
  {
    forall i :: 0 <= i < |s| ==> IsDigit(s[i])
  }

  function DigitChar(d: nat): char
    requires d < 10
  {
    ('0' as int + d) as char
  }

  function NatToDecimal(n: nat): (r: string)
    ensures |r| >= 1 && AllDigits(r)
    ensures n == 0 <==> r == "0"
    ensures n > 0 ==> r[0] != '0'
  {
    if n < 10 then [DigitChar(n)] else NatToDecimal(n / 10) + [DigitChar(n % 10)]
  }

  function DecimalValue(s: string): nat
    requires AllDigits(s)
  {
    if s == [] then 0
    else DecimalValue(s[..|s| - 1]) * 10 + (s[|s| - 1] as int - '0' as int)
  }

  /** Reading back the rendering of `n` gives `n`. */
  lemma {:induction false} DecimalRoundTrip(n: nat)
    ensures DecimalValue(NatToDecimal(n)) == n
  {
    if n >= 10 {
      DecimalRoundTrip(n / 10);
      var s := NatToDecimal(n);
      assert s[..|s| - 1] == NatToDecimal(n / 10);
    }
  }

  lemma NatToDecimalInjective(m: nat, n: nat)
    requires NatToDecimal(m) == NatToDecimal(n)
    ensures m == n
  {
    DecimalRoundTrip(m);
    DecimalRoundTrip(n);
  }

  function IntToDecimal(i: int): string
  {
    if i < 0 then "-" + NatToDecimal(-i) else NatToDecimal(i)
  }
}

=== FILE: token_sync.dfy ===
/** The synchronisation pass of the marketplace service: every minted token
    record with metadata whose derived identity `tokenized_<tokenId>_<serial>`
    is not yet present becomes a new listing appended at the end. */
module TokenSync {
  import opened Collections
  import opened Text
  import opened Model

  /** Seller of every synchronised listing when no treasury is configured. */
  const DefaultTreasury: string := "0.0.6990992"
  /** Price given to every synchronised listing. */
  const SyncedPrice: real := 2.5
  const SyncedCategories: seq<string> := ["CSV", "Tokenized Data"]
  /** Rating given to every new listing, synchronised or created. */
  const DefaultRating: real := 5.0

  /** What one synchronisation pass reads besides the ledger: the parsed
      "minted-nfts" record (empty when the slot is absent, and on the server
      where there is no `window`), the resolved treasury account and the
      clock (`Date.now()` and `new Date().toISOString()`). */
  datatype MintSource = MintSource(
    entries: seq<MintedEntry>,
    treasury: string,
    nowMillis: nat,
    nowIso: string)

  /** `process.env.NEXT_PUBLIC_TREASURY_ACCOUNT || '0.0.6990992'` */
  function TreasuryAccount(env: Option<string>): (r: string)
    ensures r != ""
    ensures env.Some? && env.value != "" ==> r == env.value
    ensures env.None? || env.value == "" ==> r == DefaultTreasury
  {
    if env.Some? && env.value != "" then env.value else DefaultTreasury
  }

  /** JavaScript truthiness of an optional string and an optional number. */
  predicate TruthyStr(x: Option<string>)
  {
    x.Some? && x.value != ""
  }

  predicate TruthyInt(x: Option<int>)
  {
    x.Some? && x.value != 0
  }

  function DerivedId(e: MintedEntry): string
  {
    "tokenized_" + e.tokenId + "_" + NatToDecimal(e.serialNumber)
  }

  /** `metadata.rowCount || metadata.summary?.totalRows || 0` */
  function SyncedRows(m: MintMetadata): int
  {
    if TruthyInt(m.rowCount) then m.rowCount.value
    else if TruthyInt(m.summaryTotalRows) then m.summaryTotalRows.value
    else 0
  }

  /** The same chain ending in `'unknown'`, as rendered in the description. */
  function RowsText(m: MintMetadata): string
  {
    if TruthyInt(m.rowCount) || TruthyInt(m.summaryTotalRows) then IntToDecimal(SyncedRows(m))
    else "unknown"
  }

  /** The listing derived from a minted record that carries metadata. */
  function FromEntry(e: MintedEntry, src: MintSource): (r: Listing)
    requires e.metadata.Some?
    ensures r.id == DerivedId(e)
    ensures r.price == SyncedPrice && r.categories == SyncedCategories
    ensures r.seller == src.treasury
    ensures r.rating == Some(DefaultRating) && r.purchases == Some(0)
    ensures PurchaseCount(r) == 0
    ensures TruthyInt(e.metadata.value.rowCount) ==> r.rows == e.metadata.value.rowCount.value
    ensures (!TruthyInt(e.metadata.value.rowCount) && TruthyInt(e.metadata.value.summaryTotalRows))
            ==> r.rows == e.metadata.value.summaryTotalRows.value
    ensures r.rows != 0 ==> TruthyInt(e.metadata.value.rowCount) || TruthyInt(e.metadata.value.summaryTotalRows)
    ensures TruthyStr(e.metadata.value.hash) ==> r.dataHash == e.metadata.value.hash.value
    ensures !TruthyStr(e.metadata.value.hash) ==>
              r.dataHash == e.tokenId + "-" + NatToDecimal(e.serialNumber)
    ensures TruthyStr(e.metadata.value.fileName) ==> r.name == StripCsvSuffix(e.metadata.value.fileName.value)
    ensures !TruthyStr(e.metadata.value.fileName) ==> r.name == "dataset_" + NatToDecimal(src.nowMillis)
    ensures r.timestamp == (if TruthyStr(e.timestamp) then e.timestamp.value else src.nowIso)
    ensures TruthyInt(e.metadata.value.rowCount) || TruthyInt(e.metadata.value.summaryTotalRows) ==>
              r.description == "Tokenized CSV dataset with " + IntToDecimal(r.rows) + " rows"
    ensures !TruthyInt(e.metadata.value.rowCount) && !TruthyInt(e.metadata.value.summaryTotalRows) ==>
              r.description == "Tokenized CSV dataset with unknown rows"
    ensures r.fileUrl.None? && r.preview.None?
  {
    var m := e.metadata.value;
    var fileName := if TruthyStr(m.fileName) then m.fileName.value
                    else "dataset_" + NatToDecimal(src.nowMillis);
    DatasetNameKept(src.nowMillis);
    Listing(
      id := DerivedId(e),
      name := StripCsvSuffix(fileName),
      description := "Tokenized CSV dataset with " + RowsText(m) + " rows",
      price := SyncedPrice,
      rows := SyncedRows(m),
      categories := SyncedCategories,
      seller := src.treasury,
      timestamp := if TruthyStr(e.timestamp) then e.timestamp.value else src.nowIso,
      dataHash := if TruthyStr(m.hash) then m.hash.value
                  else e.tokenId + "-" + NatToDecimal(e.serialNumber),
      fileUrl := None,
      preview := None,
      rating := Some(DefaultRating),
      purchases := Some(0))
  }

  /** The generated name `dataset_<millis>` ends in a digit, so no
      suffix is cut from it. */
  lemma DatasetNameKept(n: nat)
    ensures StripCsvSuffix("dataset_" + NatToDecimal(n)) == "dataset_" + NatToDecimal(n)
  {
    var d := NatToDecimal(n);
    var s := "dataset_" + d;
    assert s[|s| - 1] == d[|d| - 1];
    StripCsvOfDigitEnding(s);
  }

  /** A file named `<base>.csv` (any letter case of the extension) is listed
      under `<base>`. */
  lemma SyncedName(e: MintedEntry, src: MintSource, base: string, ext: string)
    requires e.metadata.Some? && e.metadata.value.fileName == Some(base + ext)
    requires |ext| == 4 && Lower(ext) == ".csv"
    ensures FromEntry(e, src).name == base
  {
    StripCsvOfCsvName(base, ext);
  }

  /** Any other non-empty file name is listed unchanged. */
  lemma SyncedOtherName(e: MintedEntry, src: MintSource, name: string)
    requires e.metadata.Some? && e.metadata.value.fileName == Some(name)
    requires name != "" && !EndsWithCsv(name)
    ensures FromEntry(e, src).name == name
  {
    StripCsvOfOtherName(name);
  }

  /** The seller of a synchronised listing when the pass reads the
      configured treasury: that account when it is set and non-empty, the
      default treasury otherwise; never the empty string. */
  lemma SyncedSeller(e: MintedEntry, es: seq<MintedEntry>, env: Option<string>, nowMillis: nat, nowIso: string)
    requires e.metadata.Some?
    ensures var seller := FromEntry(e, MintSource(es, TreasuryAccount(env), nowMillis, nowIso)).seller;
            && seller != ""
            && (TruthyStr(env) ==> seller == env.value)
            && (!TruthyStr(env) ==> seller == DefaultTreasury)
  {
  }

  /** One step of the `forEach`: append the derived listing unless the
      record has no metadata or its identity is already present. */
  function Absorb(ls: seq<Listing>, e: MintedEntry, src: MintSource): seq<Listing>
  {
    if e.metadata.Some? && !HasId(ls, DerivedId(e)) then ls + [FromEntry(e, src)] else ls
  }

  /** The whole pass: a left fold of `Absorb` over the records. Existing
      listings are kept, unchanged and in place, as a prefix. */
  function SyncEntries(ls: seq<Listing>, es: seq<MintedEntry>, src: MintSource): (r: seq<Listing>)
    ensures |ls| <= |r| && r[..|ls|] == ls
    decreases |es|
  {
    if es == [] then ls
    else
      var next := Absorb(ls, es[0], src);
      var r := SyncEntries(next, es[1..], src);
      assert r[..|ls|] == r[..|next|][..|ls|];
      r
  }

  /** Unique identities stay unique: a record is only absorbed when its
      derived identity is absent. */
  lemma {:induction false} SyncKeepsUniqueIds(ls: seq<Listing>, es: seq<MintedEntry>, src: MintSource)
    ensures UniqueIds(ls) ==> UniqueIds(SyncEntries(ls, es, src))
    decreases |es|
  {
    if es != [] && UniqueIds(ls) {
      var next := Absorb(ls, es[0], src);
      if next != ls {
        forall i | 0 <= i < |ls|
          ensures next[i].id != next[|ls|].id
        {
          assert next[i] == ls[i];
        }
      }
      SyncKeepsUniqueIds(next, es[1..], src);
    }
  }

  /** After the pass every record with metadata is represented. */
  lemma {:induction false} SyncCovers(ls: seq<Listing>, es: seq<MintedEntry>, src: MintSource)
    ensures forall e :: e in es && e.metadata.Some? ==> HasId(SyncEntries(ls, es, src), DerivedId(e))
    decreases |es|
  {
    if es != [] {
      var next := Absorb(ls, es[0], src);
      var r := SyncEntries(ls, es, src);
      assert r == SyncEntries(next, es[1..], src);
      SyncCovers(next, es[1..], src);
      forall e | e in es && e.metadata.Some?
        ensures HasId(r, DerivedId(e))
      {
        if e == es[0] {
          var k :| 0 <= k < |next| && next[k].id == DerivedId(e);
          assert r[..|next|] == next;
          assert r[k] == next[k];
        } else {
          assert e in es[1..];
        }
      }
    }
  }

  /** Every appended listing is the one derived from some record with
      metadata, and its identity was absent before the pass. */
  lemma {:induction false} SyncAppendsDerived(ls: seq<Listing>, es: seq<MintedEntry>, src: MintSource, k: int)
    requires |ls| <= k < |SyncEntries(ls, es, src)|
    ensures exists e :: e in es && e.metadata.Some? && SyncEntries(ls, es, src)[k] == FromEntry(e, src)
    ensures !HasId(ls, SyncEntries(ls, es, src)[k].id)
    decreases |es|
  {
    var next := Absorb(ls, es[0], src);
    var r := SyncEntries(ls, es, src);
    assert r == SyncEntries(next, es[1..], src);
    if k < |next| {
      assert r[..|next|] == next;
      assert r[k] == next[k] == FromEntry(es[0], src);
      assert es[0] in es;
    } else {
      SyncAppendsDerived(next, es[1..], src, k);
      var e :| e in es[1..] && e.metadata.Some? && r[k] == FromEntry(e, src);
      assert e in es;
      AbsorbKeepsIds(ls, es[0], src, r[k].id);
    }
  }

  /** One step never loses an identity. */
  lemma AbsorbKeepsIds(ls: seq<Listing>, e: MintedEntry, src: MintSource, id: string)
    ensures HasId(ls, id) ==> HasId(Absorb(ls, e, src), id)
  {
    if HasId(ls, id) {
      var j :| 0 <= j < |ls| && ls[j].id == id;
      assert Absorb(ls, e, src)[j] == ls[j];
    }
  }

  /** A pass over records that are all already represented changes nothing. */
  lemma {:induction false} SyncCovered(ls: seq<Listing>, es: seq<MintedEntry>, src: MintSource)
    requires forall e :: e in es && e.metadata.Some? ==> HasId(ls, DerivedId(e))
    ensures SyncEntries(ls, es, src) == ls
    decreases |es|
  {
    if es != [] {
      assert es[0] in es;
      assert forall e :: e in es[1..] ==> e in es;
      SyncCovered(ls, es[1..], src);
    }
  }

  /** Synchronising twice equals synchronising once, whatever clock or
      treasury the second pass sees. */
  lemma SyncIdempotent(ls: seq<Listing>, es: seq<MintedEntry>, src: MintSource, src': MintSource)
    ensures SyncEntries(SyncEntries(ls, es, src), es, src') == SyncEntries(ls, es, src)
  {
    SyncCovers(ls, es, src);
    SyncCovered(SyncEntries(ls, es, src), es, src');
  }

  /** Records without metadata never contribute a listing. */
  lemma {:induction false} SyncSkipsBareRecords(ls: seq<Listing>, es: seq<MintedEntry>, src: MintSource)
    requires forall k :: 0 <= k < |es| ==> es[k].metadata.None?
    ensures SyncEntries(ls, es, src) == ls
    decreases |es|
  {
    if es != [] {
      SyncSkipsBareRecords(ls, es[1..], src);
    }
  }

  /** An underscore-free head is recovered from `head + "_" + tail`. */
  lemma SplitAtUnderscore(a: string, x: string, b: string, y: string)
    requires '_' !in a && '_' !in b
    requires a + "_" + x == b + "_" + y
    ensures a == b && x == y
  {
    var s := a + "_" + x;
    assert s[|a|] == '_' && s[|b|] == '_';
    assert forall i :: 0 <= i < |a| ==> s[i] == a[i] && s[i] != '_';
    assert forall i :: 0 <= i < |b| ==> s[i] == b[i] && s[i] != '_';
    assert a == s[..|a|] && b == s[..|b|];
    assert x == s[|a| + 1..] && y == s[|b| + 1..];
  }

  /** Token identities as the ledger issues them (`0.0.<n>`) contain no
      underscore; for those, the derived identity determines the token and
      serial it came from, so distinct minted NFTs never collide. */
  lemma DerivedIdInjective(e1: MintedEntry, e2: MintedEntry)
    requires '_' !in e1.tokenId && '_' !in e2.tokenId
    requires DerivedId(e1) == DerivedId(e2)
    ensures e1.tokenId == e2.tokenId && e1.serialNumber == e2.serialNumber
  {
    var d1 := NatToDecimal(e1.serialNumber);
    var d2 := NatToDecimal(e2.serialNumber);
    var s1 := e1.tokenId + "_" + d1;
    var s2 := e2.tokenId + "_" + d2;
    assert DerivedId(e1) == "tokenized_" + s1;
    assert DerivedId(e2) == "tokenized_" + s2;
    assert s1 == DerivedId(e1)[10..];
    assert s2 == DerivedId(e2)[10..];
    var t1, t2 := e1.tokenId, e2.tokenId;
    SplitAtUnderscore(t1, d1, t2, d2);
    NatToDecimalInjective(e1.serialNumber, e2.serialNumber);
  }

  /** The worked example: one record for `q1.csv` with 500 rows yields one
      listing `tokenized_0.0.1_1`, and a second pass adds nothing. */
  lemma SyncExample(src: MintSource)
    ensures
      var e := MintedEntry("0.0.1", 1, Some(MintMetadata(Some("q1.csv"), Some(500), None, None)), None);
      var once := SyncEntries([], [e], src);
      && |once| == 1
      && once[0].id == "tokenized_0.0.1_1"
      && once[0].name == "q1"
      && once[0].rows == 500
      && once[0].price == SyncedPrice
      && PurchaseCount(once[0]) == 0
      && SyncEntries(once, [e], src) == once
  {
    var e := MintedEntry("0.0.1", 1, Some(MintMetadata(Some("q1.csv"), Some(500), None, None)), None);
    assert NatToDecimal(1) == "1";
    assert !HasId([], DerivedId(e));
    assert SyncEntries([], [e], src) == [FromEntry(e, src)];
    assert "q1" + ".csv" == "q1.csv";
    SyncedName(e, src, "q1", ".csv");
    SyncIdempotent([], [e], src, src);
  }
}

=== FILE: verify_minting.dfy ===
/** The minting configuration check: five environment settings, each
    classified as configured, present but malformed, or missing, and an
    overall verdict that fails when any required setting is not
    configured. The environment is a map from names to values; a name
    absent from the map is an unset variable. */
module MintingCheck {
  import opened Collections
  import opened Text

  type Env = map<string, string>

  /** The three kinds of format test the checks use. */
  datatype Validator =
    | LedgerIdFormat                // `/^0\.0\.\d+$/`
    | LongerThan(bound: nat)        // `val.length > bound`
    | OneOf(options: seq<string>)   // `options.includes(val)`

  datatype Check = Check(name: string, env: string, required: bool, validator: Validator)

  const AccountIdVar: string := "HEDERA_ACCOUNT_ID"
  const PrivateKeyVar: string := "HEDERA_PRIVATE_KEY"
  const NetworkVar: string := "HEDERA_NETWORK"
  const TokenIdVar: string := "NEXT_PUBLIC_DATASET_TOKEN_ID"
  const TreasuryVar: string := "NEXT_PUBLIC_TREASURY_ACCOUNT"

  const Networks: seq<string> := ["testnet", "mainnet", "previewnet"]

  /** The checks, in the order they are reported. */
  const Checks: seq<Check> := [
    Check("Account ID", AccountIdVar, true, LedgerIdFormat),
    Check("Private Key", PrivateKeyVar, true, LongerThan(50)),
    Check("Network", NetworkVar, true, OneOf(Networks)),
    Check("Dataset Token ID", TokenIdVar, true, LedgerIdFormat),
    Check("Treasury Account", TreasuryVar, false, LedgerIdFormat)
  ]

  /** `0.0.` followed by one or more ASCII digits, and nothing else. */
  predicate IsLedgerId(s: string)
  {
    |s| > 4 && s[..4] == "0.0." && AllDigits(s[4..])
  }

  /** A character outside the basic multilingual plane, which UTF-16
      encodes as a surrogate pair. */
  predicate IsAstral(c: char)
  {
    c as int >= 0x1_0000
  }

  /** `String.prototype.length` counts UTF-16 code units: a character
      outside the basic multilingual plane counts twice. */
  function Utf16Length(s: string): (n: nat)
    ensures |s| <= n <= 2 * |s|
  {
    if s == [] then 0
    else Utf16Length(s[..|s| - 1]) + (if IsAstral(s[|s| - 1]) then 2 else 1)
  }

  /** The length is the character count plus one for each character
      outside the basic multilingual plane; without such characters it is
      the character count. */
  lemma {:induction false} Utf16LengthValue(s: string)
    ensures Utf16Length(s) == |s| + |Filter(s, IsAstral)|
    ensures (forall i :: 0 <= i < |s| ==> !IsAstral(s[i])) ==> Utf16Length(s) == |s|
  {
    if s != [] {
      Utf16LengthValue(s[..|s| - 1]);
    }
    if forall i :: 0 <= i < |s| ==> !IsAstral(s[i]) {
      assert Filter(s, IsAstral) == [];
    }
  }

  /** `/^0\.0\.\d+$/`: the prefix "0.0." followed by one or more digits. */
  lemma LedgerIdShape(s: string)
    ensures IsLedgerId(s) <==> exists d :: |d| >= 1 && AllDigits(d) && s == "0.0." + d
  {
    if IsLedgerId(s) {
      assert s == "0.0." + s[4..];
    }
  }

  predicate Validates(v: Validator, value: string)
  {
    match v
    case LedgerIdFormat => IsLedgerId(value)
    case LongerThan(bound) => Utf16Length(value) > bound
    case OneOf(options) => value in options
  }

  /** `!!process.env[name]` */
  predicate HasValue(env: Env, name: string)
  {
    name in env && env[name] != ""
  }

  datatype Outcome = Configured | InvalidFormat | Missing

  function Classify(c: Check, env: Env): (o: Outcome)
    ensures o == Missing <==> !HasValue(env, c.env)
    ensures o == Configured <==> HasValue(env, c.env) && Validates(c.validator, env[c.env])
  {
    if !HasValue(env, c.env) then Missing
    else if Validates(c.validator, env[c.env]) then Configured
    else InvalidFormat
  }

  function Message(o: Outcome): string
  {
    match o
    case Configured => "Configured"
    case InvalidFormat => "Invalid format"
    case Missing => "Missing"
  }

  function StatusMark(o: Outcome): string
  {
    match o
    case Configured => "\U{2705}"
    case InvalidFormat => "\U{26A0}\U{FE0F} "
    case Missing => "\U{274C}"
  }

  /** What is printed for one check. */
  datatype Report = Report(name: string, variable: string, shown: string, status: string, message: string)

  function ReportFor(c: Check, env: Env): (r: Report)
    ensures r.shown == (if HasValue(env, c.env) then env[c.env] else "(not set)")
    ensures r.message == Message(Classify(c, env)) && r.status == StatusMark(Classify(c, env))
  {
    var o := Classify(c, env);
    Report(c.name, c.env, if HasValue(env, c.env) then env[c.env] else "(not set)", StatusMark(o), Message(o))
  }

  /** Every required setting is configured. */
  predicate AllRequiredConfigured(env: Env)
  {
    forall i :: 0 <= i < |Checks| && Checks[i].required ==> Classify(Checks[i], env) == Configured
  }

  /** The script: report each check in order and clear `allPassed` on the
      first required check that is not configured; the exit status is 1
      exactly when some required check failed. */
  method RunChecks(env: Env) returns (reports: seq<Report>, allPassed: bool, exitCode: int)
    ensures |reports| == |Checks|
    ensures forall i :: 0 <= i < |Checks| ==> reports[i] == ReportFor(Checks[i], env)
    ensures allPassed <==> AllRequiredConfigured(env)
    ensures exitCode == (if allPassed then 0 else 1)
  {
    reports := [];
    allPassed := true;
    var i := 0;
    while i < |Checks|
      invariant 0 <= i <= |Checks|
      invariant |reports| == i
      invariant forall k :: 0 <= k < i ==> reports[k] == ReportFor(Checks[k], env)
      invariant allPassed <==>
                  forall k :: 0 <= k < i && Checks[k].required ==> Classify(Checks[k], env) == Configured
    {
      var check := Checks[i];
      var outcome := Classify(check, env);
      reports := reports + [ReportFor(check, env)];
      if check.required && outcome != Configured {
        allPassed := false;
      }
      i := i + 1;
    }
    exitCode := if allPassed then 0 else 1;
  }

  /** The verdict spelled out setting by setting: the two identities are
      ledger identities, the key is longer than fifty code units and the
      network is one of the three known ones. */
  lemma ReadyExactly(env: Env)
    ensures AllRequiredConfigured(env) <==>
              && AccountIdVar in env && IsLedgerId(env[AccountIdVar])
              && PrivateKeyVar in env && Utf16Length(env[PrivateKeyVar]) > 50
              && NetworkVar in env && env[NetworkVar] in Networks
              && TokenIdVar in env && IsLedgerId(env[TokenIdVar])
  {
    if AllRequiredConfigured(env) {
      assert Classify(Checks[0], env) == Configured;
      assert Classify(Checks[1], env) == Configured;
      assert Classify(Checks[2], env) == Configured;
      assert Classify(Checks[3], env) == Configured;
    }
  }

  /** The optional treasury setting never decides the verdict, whatever it
      holds or whether it is set at all. */
  lemma TreasuryNeverDecides(env: Env, value: string)
    ensures AllRequiredConfigured(env[TreasuryVar := value]) <==> AllRequiredConfigured(env)
    ensures AllRequiredConfigured(env - {TreasuryVar}) <==> AllRequiredConfigured(env)
  {
    ReadyExactly(env);
    ReadyExactly(env[TreasuryVar := value]);
    ReadyExactly(env - {TreasuryVar});
  }

  /** The default treasury account has the ledger identity format; a bare
      prefix and a trailing letter do not. */
  lemma LedgerIdExamples()
    ensures IsLedgerId("0.0.6990992")
    ensures !IsLedgerId("0.0.")
    ensures !IsLedgerId("0.0.12a")
  {
    assert "0.0.12a"[6] == 'a';
  }
}
